=== FILE: README.md ===
# OpenAPI schema merge and fix-up, modelled in Dafny

Two offline scripts maintain the merged OpenAPI document of the Grist API.

- `merge_schemas.py` copies into an official document the paths of a comprehensive document that it lacks. It first normalizes their keys: `/api` is stripped and short placeholders such as `{oid}` are renamed. It renames short parameter names in `parameters` lists, and rewrites `$ref` strings that point at the old parameter components. Finally it appends a curated list of tags the official document does not yet have.
- `fix_merged_schema.py` then applies eight fixes to the merged document, in order:
  1. it points the first server at the Grist host pattern;
  2. it gives one operation a success response;
  3. it drops the `/scim/` paths;
  4. it drops the `scim` tag;
  5. it turns a `null` inside an `enum` list into `nullable: true`;
  6. it renames one `operationId`;
  7. it copies the `components.schemas` entries that the `paths` section refers to and the document lacks from the comprehensive document;
  8. it does the same for `components.parameters`.

The model treats the loaded YAML as a generic tree (`Trees.Tree`). A mapping is a sequence of `(key, value)` entries in insertion order, as a Python `dict` is. A list is a sequence. Strings, booleans, numbers and `null` are leaves.

Every step of the two scripts is a pure function over this tree. The Python dictionary, list and string operations the scripts use are modelled so that they fail where Python raises:

- `in` is `Trees.In`, on a mapping, a list or a string;
- `d[k]` is `Trees.Index`;
- `d.get(k, default)` is `Trees.GetOr`;
- `d[k] = v` is `Trees.SetItem`;
- iteration is `Trees.Iterate`;
- `len` is `Trees.Len`.

An exception becomes an `Err` carrying a `KeyError`, a `TypeError` or an `AttributeError`. The merge script's `str.replace` is `Strings.ReplaceAll`: left to right, non-overlapping, every occurrence.

The modules follow the scripts:

- `Strings`: `str.replace`, `startswith`, `in` on strings.
- `Trees`: the tree, and the Python operations on it.
- `PathNormalizer`, `ParamNames`, `ParamRefs`: `normalize_path`, `convert_param_names_in_path` and `convert_param_refs`.
- `Merge`: the body of the merge script's `main`.
- `Fixups`: fixes 1 to 4 and 6.
- `NullEnums`: fix 5.
- `Backfill`: fixes 7 and 8.
- `FixMerged`: the fix script's `main`, as one composition.

Where a script recurses after rewriting a node (`convert_param_names_in_path`, `fix_null_enums`), the model recurses structurally. A lemma then shows that this equals the script's order: `ParamNames.ConvertAfterRename` and `NullEnums.SourceOrder`.

## Model

| member | source | states |
|---|---|---|
| Strings.ReplaceAllAbsent | merge_schemas.py:35-36 | `str.replace` of a pattern that does not occur returns the string unchanged, so the substring guard before each replace changes nothing |
| Strings.ReplaceAll | merge_schemas.py:85-86 | `str.replace` never shortens a string when the replacement is at least as long as the pattern, and never lengthens it when the replacement is at most as long |
| Strings.ReplaceEach | merge_schemas.py:98-99 | a chain of `str.replace` calls never shortens a string when every replacement is at least as long as its pattern, and never lengthens it when every one is at most as long |
| Strings.ReplaceEachUnchangedIff | merge_schemas.py:98-99 | a chain of replacements, each longer than its non-empty pattern, leaves a string unchanged exactly when none of the patterns occurs in it, and never shortens it |
| Trees.Lookup | merge_schemas.py:174 | `d[k]` reads a value stored under `k` in the mapping, and finds nothing exactly when `k` is not a key |
| Trees.PutLookup | merge_schemas.py:174 | after `d[k] = v`, `d[k]` is `v` and every other key reads as before |
| Trees.Put | merge_schemas.py:174 | `d[k] = v` keeps the key order when `k` is present and appends `k` when it is new |
| Trees.PutSame | fix_merged_schema.py:22-23 | assigning a key the value it already holds leaves the mapping as it is |
| Trees.PutAllAppends | merge_schemas.py:173-174 | assigning, in order, entries with distinct keys that the mapping lacks appends them after the existing entries |
| Trees.Index | fix_merged_schema.py:28 | `t[k]` succeeds exactly on a mapping that has the key, and returns the stored value |
| Trees.GetOr | fix_merged_schema.py:27 | `t.get(k, d)` succeeds exactly on a mapping, and returns the stored value or `d` |
| Trees.SetItem | fix_merged_schema.py:22 | `t[k] = v` succeeds exactly on a mapping, after which `t[k]` is `v` and no other key changes |
| Trees.LenCountsIteration | fix_merged_schema.py:21 | `len(t)` succeeds on exactly the values Python iterates, and equals the number of elements `for x in t` visits |
| Trees.InAgreesWithIteration | fix_merged_schema.py:21 | on a mapping, a list, or a string with a one-character key, `k in t` holds exactly when iterating `t` visits `k` |
| PathNormalizer.NormalizeOrgPath | merge_schemas.py:82-101 | a path `/api/<a>/{oid}/<b>` with plain segments normalizes to `/<a>/{orgId}/<b>` |
| PathNormalizer.NormalizePath | merge_schemas.py:82-101 | no normalized path contains any of the six short placeholders, and a path with no `/api` and none of those placeholders normalizes to itself |
| PathNormalizer.ApiApiOnce | merge_schemas.py:85-86 | `/apiapi` normalizes to `/api`, because `/api` is also stripped from inside a segment |
| PathNormalizer.NormalizePathNotIdempotent | merge_schemas.py:85-86 | for `/apiapi`, normalizing twice differs from normalizing once |
| ParamNames.RenameParam | merge_schemas.py:67-71 | a parameter mapping with a string `name` gets that name's table entry (or keeps it), every other key keeps its value and place, and anything else is untouched |
| ParamNames.ConvertParamNames | merge_schemas.py:60-80 | at the node it is applied to, the pass keeps the kind, the keys and key order of a mapping, the length of a list, and a scalar unchanged; `ConvertShape` states the same at every depth |
| ParamNames.ConvertShape | merge_schemas.py:60-80 | the pass keeps every key, key order and list length, and only ever changes the `name` of a mapping element of a `parameters` list, to that name's table entry |
| ParamNames.ParamShape | merge_schemas.py:64-73 | an element of a `parameters` list changes at most in its `name`, which moves along the table |
| ParamNames.ConvertAfterRename | merge_schemas.py:66-75 | renaming an element and then converting it, as the script does, equals converting and then renaming |
| ParamNames.ConvertFixedIff | merge_schemas.py:46-75 | the pass leaves a tree unchanged exactly when every parameter name in it is absent from the table or one of the five names the table maps to themselves |
| ParamNames.ConvertSettles | merge_schemas.py:46-75 | after the pass no parameter name in the tree is renamed by the table any more |
| ParamNames.ConvertIdempotent | merge_schemas.py:46-75 | the pass applied twice equals the pass applied once |
| ParamNames.RenameNameIdempotent | merge_schemas.py:46-58 | every value of the name table is either not a key or maps to itself |
| ParamNames.ConvertPathObject | merge_schemas.py:67-69 | the pass succeeds exactly when every inspected parameter name is hashable (`old_name in map` raises on a mapping or list), and then keeps the shape and settles every name |
| ParamRefs.GuardRedundant | merge_schemas.py:34-36 | the loop that replaces a pattern only when it occurs equals plain successive `str.replace` |
| ParamRefs.RewriteRef | merge_schemas.py:19-36 | a `$ref` string never gets shorter, and is unchanged exactly when it contains none of `parameters/OrgId` to `parameters/UserId` |
| ParamRefs.OrgIdRefRenamed | merge_schemas.py:21-36 | `#/components/parameters/OrgId` becomes `#/components/parameters/orgIdPathParam` |
| ParamRefs.ConvertParamRefs | merge_schemas.py:30-42 | the pass keeps every key, key order and list length and every value not under `$ref`, and replaces every `$ref` string by its rewrite under the parameter table, at every depth |
| ParamRefs.ConvertRefsFixedIff | merge_schemas.py:30-42 | the pass leaves a tree unchanged exactly when no `$ref` string in it mentions an old parameter name |
| Merge.GetPathsFromSchema | merge_schemas.py:103-107 | the path keys of a document with a `paths` mapping, the empty set when `paths` is absent, and an exception when `paths` is not a mapping |
| Merge.CollectMissing | merge_schemas.py:128-137 | the staging loop succeeds exactly when every path object it converts has hashable parameter names, and stages exactly the new normalized keys |
| Merge.CollectMissingUnique | merge_schemas.py:137 | the staged mapping has distinct keys |
| Merge.StagedValueIsLast | merge_schemas.py:128-137 | the value staged under a key is the converted object of the last comprehensive path that normalizes to it |
| Merge.CollectMissingLookup | merge_schemas.py:128-137 | each key reads as its staged value when it is new, and as before otherwise |
| Merge.InsertPaths | merge_schemas.py:173-174 | with nothing staged the document is untouched; otherwise insertion succeeds exactly when the document has a `paths` mapping, and assigns every staged path into it without changing any other key |
| Merge.MergePaths | merge_schemas.py:121-137 | after a merge the path keys are the official keys together with every normalized comprehensive key; the official paths stay first with their values; each new key holds the value staged for it |
| Merge.Staged | merge_schemas.py:121-137 | the staged paths are keyed by exactly the new normalized keys, with distinct keys and the converted object of the last path normalizing to each; staging needs a comprehensive `paths` mapping |
| Merge.TagNames | merge_schemas.py:177 | building the name set succeeds exactly when every existing tag is a mapping with a hashable `name` |
| Merge.TagNamesMembers | merge_schemas.py:177 | the name set holds exactly the names of the existing tags |
| Merge.AbsentTags | merge_schemas.py:191-192 | the curated tags kept are exactly those whose name is absent, in curated order |
| Merge.AppendTags | merge_schemas.py:193 | `setdefault('tags', []).append` succeeds exactly when `tags` is absent or a list, appends at the end, and changes no other key |
| Merge.AddTags | merge_schemas.py:177-193 | adding tags fails on a document that is not a mapping, and changes no key other than `tags` |
| Merge.AddTagsAppendsAbsent | merge_schemas.py:177-193 | on a readable tag list the old tags stay as a prefix, and exactly the curated tags with absent names follow, in curated order |
| Merge.AbsentTagsNoDuplicates | merge_schemas.py:191-192 | a curated tag whose name is already present is never appended |
| Merge.MergeTags | merge_schemas.py:177-193 | the whole merge leaves the tag list as the old tags followed by the curated tags whose names were absent |
| Merge.MergeWith | merge_schemas.py:121-193 | a merge fails on an official document that is not a mapping, and fails with `KeyError('paths')` when the comprehensive document has no `paths` |
| Merge.MergeSelf | merge_schemas.py:121-193 | merging a document with normalized path keys and readable tags into itself succeeds and leaves its paths as they are |
| Merge.Merge | merge_schemas.py:121-193 | the merged path keys are the official keys together with every normalized comprehensive key; on a readable tag list the tags are the old ones followed by the curated tags whose names were absent; a non-mapping official document fails |
| NullEnums.RemoveNulls | fix_merged_schema.py:55 | the kept values contain no `null`, keep their order, and keep every other value with its count |
| NullEnums.RepairNode | fix_merged_schema.py:54-57 | a mapping whose `enum` list holds `null` loses those nulls. `nullable` becomes `true` only if it was absent, and an existing `nullable` is kept. No key is removed and nothing else changes |
| NullEnums.RepairNodeIdempotent | fix_merged_schema.py:54-57 | repairing a repaired mapping changes nothing |
| NullEnums.SourceOrder | fix_merged_schema.py:52-60 | the structural pass equals repairing a mapping first and then descending into its values, the script's order |
| NullEnums.FixNullEnums | fix_merged_schema.py:50-65 | after the pass no reachable mapping has an `enum` list containing `null` |
| NullEnums.FixFixedIff | fix_merged_schema.py:50-63 | the pass leaves a tree unchanged exactly when no reachable `enum` list holds `null` |
| NullEnums.FixIdempotent | fix_merged_schema.py:50-63 | the pass applied twice equals the pass applied once |
| NullEnums.FixTopKeys | fix_merged_schema.py:54-60 | the top mapping keeps its keys in order, with `nullable` possibly appended, and every other key holds its fixed old value |
| NullEnums.FixTopEnum | fix_merged_schema.py:54-57 | a top `enum` list holding `null` ends as its fixed non-null items in order, and `nullable` ends as its fixed old value or `true` |
| Fixups.FixFirstServer | fix_merged_schema.py:22-23 | the first server gets the fixed URL and description and keeps every other field; it must be a mapping |
| Fixups.FixServers | fix_merged_schema.py:21-23 | fix 1 succeeds exactly on the documents where Python does not raise. It is a no-op when `servers` is absent or empty. On a non-empty `servers` list it rewrites the first server as `FixFirstServer` says, and nothing else changes |
| Fixups.FixServersIdempotent | fix_merged_schema.py:21-23 | fix 1 applied to its own output changes nothing |
| Fixups.OverwriteField | fix_merged_schema.py:27-30 | the overwrite is a no-op when `paths`, the path or the verb is missing. When the operation exists it succeeds exactly when the operation is a mapping, and sets the field while keeping every other key at each level |
| Fixups.OverwriteFieldIdempotent | fix_merged_schema.py:27-30 | overwriting a second time changes nothing |
| Fixups.FixStatesRemoveResponses | fix_merged_schema.py:27-34 | fix 2 sets `responses` of `post /docs/{docId}/states/remove` to exactly `{'200': {'description': 'Success'}}`, and is a no-op when the operation is missing |
| Fixups.FixDocsOperationId | fix_merged_schema.py:69-70 | fix 6 sets `operationId` of `post /docs` to `createOrImportDoc`, and is a no-op when the operation is missing |
| Fixups.ScimKeys | fix_merged_schema.py:38 | the keys collected are exactly the path keys starting with `/scim/` |
| Fixups.Delete | fix_merged_schema.py:39-40 | deleting keeps exactly the entries whose key was not deleted, in order |
| Fixups.RemoveScimPaths | fix_merged_schema.py:38-40 | fix 3 succeeds exactly when `paths` is absent or a mapping. Afterwards no path key starts with `/scim/`, and every other path keeps its value and order |
| Fixups.KeepNonScim | fix_merged_schema.py:46 | the filter succeeds exactly when every tag is a mapping, and keeps exactly the tags not named `scim`, each as many times as it occurs, as a subsequence of the input |
| Fixups.RemoveScimTag | fix_merged_schema.py:45-46 | fix 4 is a no-op without `tags`; on a list of mappings it drops exactly the tags named `scim` and keeps the rest in order, each as many times as it occurs |
| Fixups.RemoveScim | fix_merged_schema.py:38-46 | after fixes 3 and 4 no path starts with `/scim/` and no tag is named `scim`, and every key other than `paths` and `tags` is untouched |
| Backfill.FindRefsIff | fix_merged_schema.py:75-88 | a name is collected exactly when some `$ref` string under the walked tree starts with the prefix and the name is what remains after removing every occurrence of the prefix |
| Backfill.FindRefsProject | fix_merged_schema.py:75-85 | the walk collects, in walk order, the prefix-stripped `$ref` strings that start with the prefix, and nothing else |
| Backfill.SuffixRecovered | fix_merged_schema.py:78-79 | for a reference `prefix + name` whose name does not contain the prefix, the collected name is `name` |
| Backfill.PathRefs | fix_merged_schema.py:87-88 | the names collected from `paths` are exactly the prefix-stripped `$ref` strings under it that start with the category's reference prefix; collection fails only on a document that is not a mapping |
| Backfill.CopyOne | fix_merged_schema.py:91-94 | one loop step changes nothing outside `components` |
| Backfill.CopyOneKeeps | fix_merged_schema.py:91-92 | a name the document already has, or the comprehensive document lacks, is skipped |
| Backfill.CopyOneAdds | fix_merged_schema.py:91-94 | a missing name the comprehensive document has is appended with the comprehensive entry, and no other category changes |
| Backfill.CopyMissing | fix_merged_schema.py:90-95 | for every visiting order the loop succeeds on well-shaped categories. Existing entries keep their place and value. Each appended entry is a visited name taken from the comprehensive document. Every visited name the comprehensive document has ends up present |
| Backfill.BackfilledLookup | fix_merged_schema.py:90-95 | after the loop each key reads as the document's own entry if it had one, otherwise as the comprehensive entry if the name was visited, otherwise as absent |
| Backfill.CopyMissingOrderFree | fix_merged_schema.py:90 | any two visiting orders of the same names give the same entry under every key |
| Backfill.BackfillCategory | fix_merged_schema.py:87-95 | fix 7 (and, with `parameters`, fix 8 at lines 114-122) gives every key its own entry, or else the comprehensive entry when the `paths` section refers to it |
| Backfill.BackfillResolves | fix_merged_schema.py:87-95 | after fix 7 (or 8) every name in that category that `paths` refers to and the comprehensive document defines is defined |
| Backfill.ResolvedKept | fix_merged_schema.py:114-122 | backfilling one category keeps the other category, and so keeps its references resolved |
| Backfill.Dedup | fix_merged_schema.py:90 | the visiting order holds each referenced name exactly once |
| FixMerged.SetOrder | fix_merged_schema.py:90 | the names visited by fix 7 or 8 are distinct and are exactly the names collected from `paths` |
| FixMerged.RepairSchema | fix_merged_schema.py:20-70 | after fixes 1 to 6 no path starts with `/scim/` and no tag is named `scim`, even though fixes 5 and 6 run after the removal; `components` changes only by the null-enum repair |
| FixMerged.FixMergedSchema | fix_merged_schema.py:20-122 | after all eight fixes no path starts with `/scim/` and no tag is named `scim`. When `components` and its two categories are mappings wherever present, every schema or parameter that `paths` refers to and the comprehensive document defines is defined in the result |
| FixMerged.BackfillBothResolves | fix_merged_schema.py:87-122 | fixes 7 and 8 in turn leave no reference dangling in either category: fix 8 does not undo what fix 7 copied |
| FixMerged.RepairKeepsShape | fix_merged_schema.py:50-65 | the null-enum repair keeps `components.schemas` and `components.parameters` mappings |
| FixMerged.ScimFreeAfterNullEnums | fix_merged_schema.py:50-65 | the null-enum repair cannot bring back a SCIM path or tag |

## Left out

- Loading and dumping YAML, the `OrderedDict` representer and the output formatting. This is file input and output through a library that is not part of this model.
- The hard-coded file paths, the progress `print`s and `sys.exit`.
- The report of missing paths by category (merge_schemas.py:143-170). It is display-only, and its regular-expression search does not touch the document.
- Number and boolean semantics. Scalars are opaque atoms; only strings and `null` are inspected. Mapping keys are strings, as every key in an OpenAPI document is.
- Python object identity. Sub-objects are modelled as values, and a write through a local name (such as `endpoint` in fix 2) is modelled as a chain of assignments back into the document. The model assumes a document without YAML anchors or aliases. Under an alias, `yaml.safe_load` returns one shared object, so the in-place writes of fixes 1, 2 and 6 reach every alias and the dump re-emits the anchor; the model changes only the one position.
- Backfill.BackfillCategory: the order in which a Python `set` yields its names is not modelled. The fix script visits the distinct names in an order the caller chooses; `FixMerged.SetOrder` uses order of last occurrence. `Backfill.CopyMissingOrderFree` shows the outcome is the same for every order.
- Backfill.FindRefs: `str.replace(prefix, '')` removes every occurrence of the prefix, not just the leading one. The model follows the code. `Backfill.SuffixRecovered` states when the result is the plain suffix.
- Backfill.CopyMissing: the loop copies only the components that `paths` refers to directly. References inside a copied component are not followed, as in the code.
- FixMerged.FixMergedSchema: its contract covers the SCIM removal and the resolution of references; the other fixes are stated by their own members. Components copied by fixes 7 and 8 arrive after fix 5 has run, so they may still contain `null` inside an `enum`, and no contract claims otherwise.
- Merge.MergeWith: the merge script does not copy components; only the fix script does. The model follows the code.
- PathNormalizer.NormalizePathNotIdempotent: `normalize_path` is not idempotent. The second `str.replace` turns `/apiapi` into `/api`, which a second run turns into `/`. The model follows the code.
- Merge.MergeSelf: it requires every path key to be a fixed point of `normalize_path`. For other keys the normalized key of a path may be missing from the document, and the path is then staged again.

=== FILE: backfill.dfy ===
/**
  Fixes 7 and 8 of the fix script: collect the component names the
  `paths` section refers to through `$ref` strings, and copy each one the
  document lacks from the comprehensive document. The script visits the
  names in the order of a Python `set`, which is not fixed; `CopyMissing`
  is stated for every order of the names.
 */
module Backfill {
  import opened Strings
  import opened Trees
  import opened Fixups

  // ---------------------------------------------------------------------
  // find_schema_refs / find_param_refs
  // ---------------------------------------------------------------------

  /** The concatenation of a sequence of sequences. */
  function Flatten(ss: seq<seq<string>>): (r: seq<string>)
    ensures forall x :: x in r <==> exists i :: 0 <= i < |ss| && x in ss[i]
  {
    if ss == [] then []
    else
      assert forall i :: 1 <= i < |ss| ==> ss[i] == ss[1..][i - 1];
      ss[0] + Flatten(ss[1..])
  }

  /** The names a tree refers to: the part of every `$ref` string starting
      with `prefix` left after `str.replace(prefix, '')`, in the order the
      script's walk meets them. */
  function FindRefs(t: Tree, prefix: string): seq<string>
    requires |prefix| > 0
    decreases t, 1
  {
    match t
    case Mapping(es) => Flatten(seq(|es|, i requires 0 <= i < |es| => ValueRefs(es[i].0, es[i].1, prefix)))
    case List(xs) => Flatten(seq(|xs|, i requires 0 <= i < |xs| => FindRefs(xs[i], prefix)))
    case _ => []
  }

  /** The names found under key `k`: a matching `$ref` string is recorded
      and not walked into; any other value is walked. */
  function ValueRefs(k: string, v: Tree, prefix: string): seq<string>
    requires |prefix| > 0
    decreases v, 2
  {
    if k == "$ref" && v.Str? && StartsWith(v.text, prefix) then [ReplaceAll(v.text, prefix, "")]
    else FindRefs(v, prefix)
  }

  /** Every string stored under a `$ref` key, whatever it points at. */
  function AllRefs(t: Tree): seq<string>
    decreases t, 1
  {
    match t
    case Mapping(es) => Flatten(seq(|es|, i requires 0 <= i < |es| => ValueAllRefs(es[i].0, es[i].1)))
    case List(xs) => Flatten(seq(|xs|, i requires 0 <= i < |xs| => AllRefs(xs[i])))
    case _ => []
  }

  function ValueAllRefs(k: string, v: Tree): seq<string>
    decreases v, 2
  {
    if k == "$ref" && v.Str? then [v.text] else AllRefs(v)
  }

  /** The references starting with `prefix`, with `prefix` removed. */
  function Project(refs: seq<string>, prefix: string): (r: seq<string>)
    requires |prefix| > 0
    ensures forall x :: x in r <==> exists v :: v in refs && StartsWith(v, prefix) && x == ReplaceAll(v, prefix, "")
  {
    if refs == [] then []
    else
      assert forall v :: v in refs[1..] ==> v in refs;
      assert forall v :: v in refs ==> v == refs[0] || v in refs[1..];
      (if StartsWith(refs[0], prefix) then [ReplaceAll(refs[0], prefix, "")] else []) + Project(refs[1..], prefix)
  }

  lemma {:induction false} ProjectAppend(a: seq<string>, b: seq<string>, prefix: string)
    requires |prefix| > 0
    ensures Project(a + b, prefix) == Project(a, prefix) + Project(b, prefix)
  {
    if a != [] {
      assert (a + b)[1..] == a[1..] + b;
      ProjectAppend(a[1..], b, prefix);
    } else {
      assert a + b == b;
    }
  }

  lemma {:induction false} ProjectFlatten(ss: seq<seq<string>>, ps: seq<seq<string>>, prefix: string)
    requires |prefix| > 0
    requires |ps| == |ss| && forall i :: 0 <= i < |ss| ==> ps[i] == Project(ss[i], prefix)
    ensures Project(Flatten(ss), prefix) == Flatten(ps)
  {
    if ss != [] {
      ProjectAppend(ss[0], Flatten(ss[1..]), prefix);
      ProjectFlatten(ss[1..], ps[1..], prefix);
    }
  }

  /** The walk with a prefix is the prefix filter applied to all the
      references of the tree. */
  lemma {:induction false} FindRefsProject(t: Tree, prefix: string)
    requires |prefix| > 0
    ensures FindRefs(t, prefix) == Project(AllRefs(t), prefix)
    decreases t, 1
  {
    match t
    case Mapping(es) =>
      var ss := seq(|es|, i requires 0 <= i < |es| => ValueAllRefs(es[i].0, es[i].1));
      var ps := seq(|es|, i requires 0 <= i < |es| => ValueRefs(es[i].0, es[i].1, prefix));
      forall i | 0 <= i < |es|
        ensures ps[i] == Project(ss[i], prefix)
      {
        ValueRefsProject(es[i].0, es[i].1, prefix);
      }
      ProjectFlatten(ss, ps, prefix);
    case List(xs) =>
      var ss := seq(|xs|, i requires 0 <= i < |xs| => AllRefs(xs[i]));
      var ps := seq(|xs|, i requires 0 <= i < |xs| => FindRefs(xs[i], prefix));
      forall i | 0 <= i < |xs|
        ensures ps[i] == Project(ss[i], prefix)
      {
        FindRefsProject(xs[i], prefix);
      }
      ProjectFlatten(ss, ps, prefix);
    case _ =>
  }

  lemma {:induction false} ValueRefsProject(k: string, v: Tree, prefix: string)
    requires |prefix| > 0
    ensures ValueRefs(k, v, prefix) == Project(ValueAllRefs(k, v), prefix)
    decreases v, 2
  {
    if k == "$ref" && v.Str? {
      assert [v.text][1..] == [];
      if !StartsWith(v.text, prefix) {
        FindRefsProject(v, prefix);
      }
    } else {
      FindRefsProject(v, prefix);
    }
  }

  /** A name is found exactly when some `$ref` string of the tree starts
      with `prefix` and leaves that name once `prefix` is removed. */
  lemma FindRefsIff(t: Tree, prefix: string, name: string)
    requires |prefix| > 0
    ensures name in FindRefs(t, prefix) <==>
      exists v :: v in AllRefs(t) && StartsWith(v, prefix) && name == ReplaceAll(v, prefix, "")
  {
    FindRefsProject(t, prefix);
  }

  /** A reference `prefix + name` yields `name` when `name` does not repeat
      the prefix. */
  lemma SuffixRecovered(prefix: string, name: string)
    requires |prefix| > 0 && !Contains(name, prefix)
    ensures StartsWith(prefix + name, prefix)
    ensures ReplaceAll(prefix + name, prefix, "") == name
  {
    assert (prefix + name)[..|prefix|] == prefix;
    ReplaceAllMatchHead(name, prefix, "");
    ReplaceAllAbsent(name, prefix, "");
  }

  // ---------------------------------------------------------------------
  // Copying the missing components
  // ---------------------------------------------------------------------

  /** `doc.get('components', {}).get(cat, {})`. */
  function CategoryOf(doc: Tree, cat: string): Result<Tree> {
    var comps :- GetOr(doc, "components", Mapping([]));
    GetOr(comps, cat, Mapping([]))
  }

  /** The category reads as a mapping, present or defaulted to `{}`. */
  predicate Shaped(doc: Tree, cat: string) {
    CategoryOf(doc, cat).Ok? && CategoryOf(doc, cat).value.Mapping?
  }

  /** The entries of a shaped category. */
  function Cat(doc: Tree, cat: string): Entries
    requires Shaped(doc, cat)
  {
    CategoryOf(doc, cat).value.entries
  }

  /** The other categories of `doc['components']`, as far as they exist. */
  function OtherCategory(doc: Tree, c: string): Option<Tree> {
    match Child(doc, "components")
    case Some(comps) => Child(comps, c)
    case None => None
  }

  /** `u` is `doc`, or both are mappings that agree on every key but
      `components`. */
  ghost predicate SameOutsideComponents(doc: Tree, u: Tree) {
    || u == doc
    || (&& doc.Mapping? && u.Mapping?
        && forall k :: k != "components" ==> Lookup(u.entries, k) == Lookup(doc.entries, k))
  }

  /** The loop body for one name. */
  function CopyOne(doc: Tree, comp: Tree, cat: string, name: string): (r: Result<Tree>)
    ensures r.Ok? ==> SameOutsideComponents(doc, r.value)
  {
    var comps :- GetOr(doc, "components", Mapping([]));
    var cats :- GetOr(comps, cat, Mapping([]));
    var present :- In(name, cats);
    if present then Ok(doc)
    else
      var ccomps :- GetOr(comp, "components", Mapping([]));
      var ccats :- GetOr(ccomps, cat, Mapping([]));
      var available :- In(name, ccats);
      if !available then Ok(doc)
      else
        // `comp['components'][cat][name]`: `name` was found, so both keys
        // exist and the subscript chain reaches `ccats`.
        var v :- Index(ccats, name);
        var cats' :- SetItem(cats, name, v);
        var comps' := SetItem(comps, cat, cats').value;
        SetItem(doc, "components", comps')
  }

  /** `e2` is `e` with entries appended, each for a name of `names` that
      `e` lacks, holding that name's entry in `c`; and every name of `names`
      that `c` has is in `e2`. */
  ghost predicate Backfilled(e: Entries, e2: Entries, c: Entries, names: seq<string>) {
    && |e| <= |e2| && e2[..|e|] == e
    && (forall i :: |e| <= i < |e2| ==>
          e2[i].0 in names && !HasKey(e, e2[i].0) && Lookup(c, e2[i].0) == Some(e2[i].1))
    && (forall n :: n in names && HasKey(c, n) ==> HasKey(e2, n))
  }

  /** `u` is `doc` with at most its category `cat` changed. */
  ghost predicate OnlyCategory(doc: Tree, u: Tree, cat: string) {
    && doc.Mapping? && u.Mapping?
    && (forall k :: k != "components" ==> Lookup(u.entries, k) == Lookup(doc.entries, k))
    && (forall c :: c != cat ==> OtherCategory(u, c) == OtherCategory(doc, c))
  }

  lemma PrefixHasKey(e: Entries, e2: Entries, k: string)
    requires |e| <= |e2| && e2[..|e|] == e && HasKey(e, k)
    ensures HasKey(e2, k)
  {
    var i :| 0 <= i < |e| && Keys(e)[i] == k;
    assert e2[i] == e[i];
  }

  /** A name the document has, or the comprehensive document lacks, is
      skipped. */
  lemma CopyOneKeeps(doc: Tree, comp: Tree, cat: string, name: string)
    requires Shaped(doc, cat) && Shaped(comp, cat)
    requires HasKey(Cat(doc, cat), name) || !HasKey(Cat(comp, cat), name)
    ensures CopyOne(doc, comp, cat, name) == Ok(doc)
  {
  }

  /** Any other name is appended to the category with the comprehensive
      document's entry. */
  lemma CopyOneAdds(doc: Tree, comp: Tree, cat: string, name: string)
    requires Shaped(doc, cat) && Shaped(comp, cat)
    requires !HasKey(Cat(doc, cat), name) && HasKey(Cat(comp, cat), name)
    ensures CopyOne(doc, comp, cat, name).Ok?
    ensures var u := CopyOne(doc, comp, cat, name).value;
      && Shaped(u, cat) && OnlyCategory(doc, u, cat)
      && Cat(u, cat) == Cat(doc, cat) + [(name, Lookup(Cat(comp, cat), name).value)]
  {
    var e, c := Cat(doc, cat), Cat(comp, cat);
    var comps := GetOr(doc, "components", Mapping([])).value;
    var v := Lookup(c, name).value;
    var e' := e + [(name, v)];
    PutAppends(e, name, v);
    var comps' := SetItem(comps, cat, Mapping(e')).value;
    assert CopyOne(doc, comp, cat, name) == SetItem(doc, "components", comps');
    SetItemChangedAt(comps, cat, Mapping(e'));
    SetItemChangedAt(doc, "components", comps');
  }

  /** One step of the loop. */
  lemma CopyOneSpec(doc: Tree, comp: Tree, cat: string, name: string)
    requires Shaped(doc, cat) && Shaped(comp, cat)
    ensures CopyOne(doc, comp, cat, name).Ok?
    ensures var u := CopyOne(doc, comp, cat, name).value;
      && Shaped(u, cat) && OnlyCategory(doc, u, cat)
      && Backfilled(Cat(doc, cat), Cat(u, cat), Cat(comp, cat), [name])
  {
    var e, c := Cat(doc, cat), Cat(comp, cat);
    if !HasKey(e, name) && HasKey(c, name) {
      CopyOneAdds(doc, comp, cat, name);
      AppendBackfilled(e, c, name);
    } else {
      CopyOneKeeps(doc, comp, cat, name);
      CopyNothing(doc, comp, cat);
    }
  }

  lemma AppendBackfilled(e: Entries, c: Entries, name: string)
    requires !HasKey(e, name) && HasKey(c, name)
    ensures Backfilled(e, e + [(name, Lookup(c, name).value)], c, [name])
  {
    var v := Lookup(c, name).value;
    assert (e + [(name, v)])[..|e|] == e;
    HasKeyAppend(e, (name, v), name);
  }

  /** Copying no name changes nothing. */
  lemma CopyNothing(doc: Tree, comp: Tree, cat: string)
    ensures Shaped(doc, cat) && Shaped(comp, cat) ==>
      OnlyCategory(doc, doc, cat) && Backfilled(Cat(doc, cat), Cat(doc, cat), Cat(comp, cat), [])
  {
    if Shaped(doc, cat) {
      assert Cat(doc, cat)[..|Cat(doc, cat)|] == Cat(doc, cat);
    }
  }

  /** Two rounds of copying compose. */
  lemma BackfilledTrans(e: Entries, e1: Entries, e2: Entries, c: Entries, n: string, rest: seq<string>)
    requires Backfilled(e, e1, c, [n]) && Backfilled(e1, e2, c, rest)
    ensures Backfilled(e, e2, c, [n] + rest)
  {
    assert e2[..|e|] == e1[..|e|];
    forall i | |e| <= i < |e2|
      ensures e2[i].0 in [n] + rest && !HasKey(e, e2[i].0)
    {
      if i >= |e1| && HasKey(e, e2[i].0) {
        PrefixHasKey(e, e1, e2[i].0);
      }
      if i < |e1| {
        assert e2[i] == e1[i];
      }
    }
    forall m | m in [n] + rest && HasKey(c, m)
      ensures HasKey(e2, m)
    {
      if m == n && m !in rest {
        PrefixHasKey(e1, e2, m);
      }
    }
  }

  /** `for name in names:` the loop body, in the given order. */
  function CopyMissing(doc: Tree, comp: Tree, cat: string, names: seq<string>): (r: Result<Tree>)
    ensures Shaped(doc, cat) && Shaped(comp, cat) ==> r.Ok?
    ensures r.Ok? && Shaped(doc, cat) && Shaped(comp, cat) ==>
      && Shaped(r.value, cat) && OnlyCategory(doc, r.value, cat)
      && Backfilled(Cat(doc, cat), Cat(r.value, cat), Cat(comp, cat), names)
    ensures r.Ok? ==> SameOutsideComponents(doc, r.value)
    decreases |names|
  {
    if names == [] then
      CopyNothing(doc, comp, cat);
      Ok(doc)
    else
      var d :- CopyOne(doc, comp, cat, names[0]);
      if Shaped(doc, cat) && Shaped(comp, cat) then
        CopyOneSpec(doc, comp, cat, names[0]);
        var r := CopyMissing(d, comp, cat, names[1..]);
        assert [names[0]] + names[1..] == names;
        if r.Ok? then
          BackfilledTrans(Cat(doc, cat), Cat(d, cat), Cat(r.value, cat), Cat(comp, cat), names[0], names[1..]);
          r
        else r
      else CopyMissing(d, comp, cat, names[1..])
  }

  /** What a round of copying means for every key: the document's own
      entry if it has one, else the comprehensive entry if the name was
      visited, else nothing. */
  lemma BackfilledLookup(e: Entries, e2: Entries, c: Entries, names: seq<string>, k: string)
    requires Backfilled(e, e2, c, names)
    ensures Lookup(e2, k) ==
      if HasKey(e, k) then Lookup(e, k)
      else if k in names && HasKey(c, k) then Lookup(c, k)
      else None
  {
    assert e2 == e + e2[|e|..];
    if HasKey(e, k) {
      LookupPrefix(e, e2[|e|..], k);
    } else {
      BackfilledNewKey(e, e2, c, names, k);
    }
  }

  /** A key the document lacked reads from the appended part. */
  lemma BackfilledNewKey(e: Entries, e2: Entries, c: Entries, names: seq<string>, k: string)
    requires Backfilled(e, e2, c, names) && !HasKey(e, k)
    ensures Lookup(e2, k) == if k in names && HasKey(c, k) then Lookup(c, k) else None
  {
    var rest := e2[|e|..];
    assert e2 == e + rest;
    LookupAppend(e, rest, k);
    if Lookup(rest, k).Some? {
      AppendedFromComponents(e, e2, c, names, k);
    } else if k in names && HasKey(c, k) {
      KeysAppend(e, rest);
      assert false;
    }
  }

  /** An appended entry is the comprehensive entry of a visited name. */
  lemma AppendedFromComponents(e: Entries, e2: Entries, c: Entries, names: seq<string>, k: string)
    requires Backfilled(e, e2, c, names) && Lookup(e2[|e|..], k).Some?
    ensures k in names && Lookup(c, k) == Lookup(e2[|e|..], k)
  {
    var i := KeyIndex(e2[|e|..], k);
    assert e2[|e| + i] == e2[|e|..][i];
  }

  /** The order in which the names are visited does not matter: any two
      orders of the same names give the same lookups. */
  lemma CopyMissingOrderFree(doc: Tree, comp: Tree, cat: string, names: seq<string>, names': seq<string>, k: string)
    requires Shaped(doc, cat) && Shaped(comp, cat)
    requires forall n :: n in names <==> n in names'
    ensures Lookup(Cat(CopyMissing(doc, comp, cat, names).value, cat), k)
      == Lookup(Cat(CopyMissing(doc, comp, cat, names').value, cat), k)
  {
    var e, c := Cat(doc, cat), Cat(comp, cat);
    BackfilledLookup(e, Cat(CopyMissing(doc, comp, cat, names).value, cat), c, names, k);
    BackfilledLookup(e, Cat(CopyMissing(doc, comp, cat, names').value, cat), c, names', k);
  }

  // ---------------------------------------------------------------------
  // Fixes 7 and 8
  // ---------------------------------------------------------------------

  /** `'#/components/<cat>/'`. */
  function RefPrefix(cat: string): (p: string)
    ensures |p| > 0
  {
    "#/components/" + cat + "/"
  }

  /** The names collected from `doc.get('paths', {})`: a name is collected
      exactly when some `$ref` string under the paths is the reference
      prefix of `cat` followed by it. */
  function PathRefs(doc: Tree, cat: string): (r: Result<seq<string>>)
    ensures r.Ok? <==> doc.Mapping?
    ensures r.Ok? ==> forall n :: (n in r.value <==>
      exists v :: v in AllRefs(GetOr(doc, "paths", Mapping([])).value)
        && StartsWith(v, RefPrefix(cat)) && n == ReplaceAll(v, RefPrefix(cat), ""))
  {
    var paths :- GetOr(doc, "paths", Mapping([]));
    FindRefsProject(paths, RefPrefix(cat));
    Ok(FindRefs(paths, RefPrefix(cat)))
  }

  /** Fix 7 (`cat` is `schemas`) or fix 8 (`parameters`): collect the
      references, then copy the missing components, visiting the distinct
      names in `order`, the iteration order of the Python set. */
  function BackfillCategory(doc: Tree, comp: Tree, cat: string, order: seq<string>): (r: Result<Tree>)
    requires PathRefs(doc, cat).Ok? ==> Distinct(order) && forall n :: n in order <==> n in PathRefs(doc, cat).value
    ensures Shaped(doc, cat) && Shaped(comp, cat) ==> r.Ok?
    ensures r.Ok? && Shaped(doc, cat) && Shaped(comp, cat) ==>
      && Shaped(r.value, cat) && OnlyCategory(doc, r.value, cat)
      && forall k :: (Lookup(Cat(r.value, cat), k) ==
        if HasKey(Cat(doc, cat), k) then Lookup(Cat(doc, cat), k)
        else if k in PathRefs(doc, cat).value && HasKey(Cat(comp, cat), k) then Lookup(Cat(comp, cat), k)
        else None)
    ensures r.Ok? ==> SameOutsideComponents(doc, r.value)
  {
    var refs :- PathRefs(doc, cat);
    var r := CopyMissing(doc, comp, cat, order);
    BackfillCategoryLookup(doc, comp, cat, order);
    r
  }

  lemma BackfillCategoryLookup(doc: Tree, comp: Tree, cat: string, order: seq<string>)
    ensures CopyMissing(doc, comp, cat, order).Ok? && Shaped(doc, cat) && Shaped(comp, cat) ==>
      forall k :: (Lookup(Cat(CopyMissing(doc, comp, cat, order).value, cat), k) ==
        if HasKey(Cat(doc, cat), k) then Lookup(Cat(doc, cat), k)
        else if k in order && HasKey(Cat(comp, cat), k) then Lookup(Cat(comp, cat), k)
        else None)
  {
    if CopyMissing(doc, comp, cat, order).Ok? && Shaped(doc, cat) && Shaped(comp, cat) {
      forall k {
        BackfilledLookup(Cat(doc, cat), Cat(CopyMissing(doc, comp, cat, order).value, cat), Cat(comp, cat), order, k);
      }
    }
  }

  /** Every name the `paths` section of `doc` refers to in category `cat`
      that `comp` defines is also defined in `doc`. */
  ghost predicate Resolved(doc: Tree, comp: Tree, cat: string) {
    && Shaped(doc, cat) && Shaped(comp, cat) && PathRefs(doc, cat).Ok?
    && forall n :: n in PathRefs(doc, cat).value && HasKey(Cat(comp, cat), n) ==> HasKey(Cat(doc, cat), n)
  }

  /** Changing only `components` keeps the references of `paths`. */
  lemma PathRefsOutside(doc: Tree, u: Tree, cat: string)
    requires SameOutsideComponents(doc, u)
    ensures PathRefs(u, cat) == PathRefs(doc, cat)
  {
    if u != doc && doc.Mapping? {
      assert Lookup(u.entries, "paths") == Lookup(doc.entries, "paths");
    }
  }

  /** Backfilling one category leaves another category as it was. */
  lemma OtherCategoryKept(doc: Tree, u: Tree, cat: string, c: string)
    requires OnlyCategory(doc, u, cat) && Shaped(u, cat) && Shaped(doc, c) && c != cat
    ensures Shaped(u, c) && Cat(u, c) == Cat(doc, c)
  {
    assert OtherCategory(u, c) == OtherCategory(doc, c);
  }

  /** After fix 7 or 8 no reference of `paths` in that category is left
      dangling when the comprehensive document defines it. */
  lemma BackfillResolves(doc: Tree, comp: Tree, cat: string, order: seq<string>)
    requires PathRefs(doc, cat).Ok? ==> Distinct(order) && forall n :: n in order <==> n in PathRefs(doc, cat).value
    requires Shaped(doc, cat) && Shaped(comp, cat)
    ensures BackfillCategory(doc, comp, cat, order).Ok?
    ensures Resolved(BackfillCategory(doc, comp, cat, order).value, comp, cat)
  {
    var u := BackfillCategory(doc, comp, cat, order).value;
    PathRefsOutside(doc, u, cat);
    forall n | n in PathRefs(u, cat).value && HasKey(Cat(comp, cat), n)
      ensures HasKey(Cat(u, cat), n)
    {
      assert Lookup(Cat(u, cat), n).Some?;
    }
  }

  /** Backfilling category `cat` keeps category `c` resolved. */
  lemma ResolvedKept(doc: Tree, u: Tree, comp: Tree, cat: string, c: string)
    requires OnlyCategory(doc, u, cat) && SameOutsideComponents(doc, u) && Shaped(u, cat) && c != cat
    requires Resolved(doc, comp, c)
    ensures Resolved(u, comp, c)
  {
    OtherCategoryKept(doc, u, cat, c);
    PathRefsOutside(doc, u, c);
  }

  /** The names of `s` without repeats, in order of last occurrence: one
      order a Python set may produce. */
  function Dedup(s: seq<string>): (r: seq<string>)
    ensures Distinct(r)
    ensures forall x :: x in r <==> x in s
  {
    if s == [] then []
    else
      var rest := Dedup(s[1..]);
      assert forall x :: x in s <==> x == s[0] || x in s[1..];
      if s[0] in rest then rest
      else
        assert forall i :: 1 <= i < |[s[0]] + rest| ==> ([s[0]] + rest)[i] == rest[i - 1];
        [s[0]] + rest
  }
}

=== FILE: fix_merged.dfy ===
/**
  The fix script's `main` without the file handling: fixes 1 to 8 in the
  script's order. The two `set(refs)` loops visit their names in order of
  last occurrence, one of the orders a Python set may produce;
  `CopyMissingOrderFree` shows the choice does not matter.
 */
module FixMerged {
  import opened Trees
  import opened Fixups
  import opened NullEnums
  import opened Backfill

  /** The visiting order for `set(refs)`. */
  function SetOrder(doc: Tree, cat: string): (r: seq<string>)
    ensures PathRefs(doc, cat).Ok? ==> Distinct(r) && forall n :: n in r <==> n in PathRefs(doc, cat).value
  {
    match PathRefs(doc, cat)
    case Ok(refs) => Dedup(refs)
    case Err(_) => []
  }

  /** Fixes 1 to 6 in order. */
  function RepairSchema(doc: Tree): (r: Result<Tree>)
    ensures r.Ok? ==> NoScimPaths(r.value) && NoScimTags(r.value)
    ensures r.Ok? ==> doc.Mapping? && r.value.Mapping?
    ensures r.Ok? ==> (Child(r.value, "components") ==
      if HasKey(doc.entries, "components") then Some(FixNullEnums(Child(doc, "components").value)) else None)
  {
    var d1 :- FixServers(doc);
    var d2 :- FixStatesRemoveResponses(d1);
    var d3 :- RemoveScim(d2);
    OverwriteKeepsComponents(d1, StatesRemovePath, "post", "responses", SuccessResponses);
    ServersKeepComponents(doc, d1);
    var d4 := FixNullEnums(d3);
    FixTopKeys(d3.entries);
    ScimFreeAfterNullEnums(d3);
    ScimFreeAfterOperationId(d4);
    var d5 :- FixDocsOperationId(d4);
    OverwriteKeepsComponents(d4, "/docs", "post", "operationId", Str("createOrImportDoc"));
    Ok(d5)
  }

  /** Fix 1 leaves `components` alone. */
  lemma ServersKeepComponents(doc: Tree, d1: Tree)
    requires FixServers(doc) == Ok(d1) && d1.Mapping?
    ensures doc.Mapping? && Lookup(d1.entries, "components") == Lookup(doc.entries, "components")
  {
  }

  /** Fixes 2 and 6 leave `components` alone. */
  lemma OverwriteKeepsComponents(d: Tree, path: string, verb: string, field: string, value: Tree)
    requires OverwriteField(d, path, verb, field, value).Ok?
    ensures var u := OverwriteField(d, path, verb, field, value).value;
      d.Mapping? && u.Mapping? && Lookup(u.entries, "components") == Lookup(d.entries, "components")
  {
    var u := OverwriteField(d, path, verb, field, value).value;
    if u != d {
      assert ChangedAt(d, u, "paths");
    }
  }

  /** The null-enum repair keeps a category of `components` a mapping. */
  lemma RepairKeepsShape(doc: Tree, cat: string)
    requires RepairSchema(doc).Ok? && Shaped(doc, cat)
    requires cat != "enum" && cat != "nullable"
    ensures Shaped(RepairSchema(doc).value, cat)
  {
    if HasKey(doc.entries, "components") {
      var comps := Child(doc, "components").value;
      FixTopKeys(comps.entries);
      if HasKey(comps.entries, cat) {
        FixKind(Lookup(comps.entries, cat).value);
      }
    }
  }

  /** Fixes 1 to 8 in order. */
  function FixMergedSchema(doc: Tree, comp: Tree): (r: Result<Tree>)
    ensures r.Ok? ==> NoScimPaths(r.value) && NoScimTags(r.value)
    ensures (r.Ok? && Shaped(doc, "schemas") && Shaped(doc, "parameters")
             && Shaped(comp, "schemas") && Shaped(comp, "parameters")) ==>
      Resolved(r.value, comp, "schemas") && Resolved(r.value, comp, "parameters")
  {
    var d5 :- RepairSchema(doc);
    var d6 :- BackfillCategory(d5, comp, "schemas", SetOrder(d5, "schemas"));
    ScimFreeOutsideComponents(d5, d6);
    var d7 :- BackfillCategory(d6, comp, "parameters", SetOrder(d6, "parameters"));
    ScimFreeOutsideComponents(d6, d7);
    BackfillBothResolves(doc, comp);
    Ok(d7)
  }

  /** Fixes 7 and 8 together resolve both categories, when `components`
      and its two categories are mappings wherever present. */
  lemma BackfillBothResolves(doc: Tree, comp: Tree)
    requires RepairSchema(doc).Ok?
    ensures var d5 := RepairSchema(doc).value;
      (Shaped(doc, "schemas") && Shaped(doc, "parameters") && Shaped(comp, "schemas") && Shaped(comp, "parameters")) ==>
      (&& BackfillCategory(d5, comp, "schemas", SetOrder(d5, "schemas")).Ok?
       && var d6 := BackfillCategory(d5, comp, "schemas", SetOrder(d5, "schemas")).value;
       && BackfillCategory(d6, comp, "parameters", SetOrder(d6, "parameters")).Ok?
       && var d7 := BackfillCategory(d6, comp, "parameters", SetOrder(d6, "parameters")).value;
       Resolved(d7, comp, "schemas") && Resolved(d7, comp, "parameters"))
  {
    if Shaped(doc, "schemas") && Shaped(doc, "parameters") && Shaped(comp, "schemas") && Shaped(comp, "parameters") {
      var d5 := RepairSchema(doc).value;
      RepairKeepsShape(doc, "schemas");
      RepairKeepsShape(doc, "parameters");
      BackfillResolves(d5, comp, "schemas", SetOrder(d5, "schemas"));
      var d6 := BackfillCategory(d5, comp, "schemas", SetOrder(d5, "schemas")).value;
      OtherCategoryKept(d5, d6, "schemas", "parameters");
      BackfillResolves(d6, comp, "parameters", SetOrder(d6, "parameters"));
      var d7 := BackfillCategory(d6, comp, "parameters", SetOrder(d6, "parameters")).value;
      ResolvedKept(d6, d7, comp, "parameters", "schemas");
    }
  }

  /** Copying components keeps the document free of SCIM paths and tags. */
  lemma ScimFreeOutsideComponents(d: Tree, u: Tree)
    requires SameOutsideComponents(d, u)
    ensures NoScimPaths(d) && NoScimTags(d) ==> NoScimPaths(u) && NoScimTags(u)
  {
  }

  lemma NullableNotScim()
    ensures !IsScimPath("nullable")
  {
    assert "nullable"[0] != ScimPrefix[0];
  }

  /** Repairing the enums of a tag keeps whether it is the SCIM tag. */
  lemma TagAfterNullEnums(t: Tree)
    requires t.Mapping?
    ensures FixNullEnums(t).Mapping?
    ensures IsScimTag(FixNullEnums(t)) <==> IsScimTag(t)
  {
    FixTopKeys(t.entries);
    if HasKey(t.entries, "name") {
      FixKind(Lookup(t.entries, "name").value);
    }
  }

  lemma TagsAfterNullEnums(ts: Tree)
    requires ts.List? && forall t :: t in ts.items ==> t.Mapping? && !IsScimTag(t)
    ensures FixNullEnums(ts).List?
    ensures forall t :: t in FixNullEnums(ts).items ==> t.Mapping? && !IsScimTag(t)
  {
    FixKind(ts);
    forall t | t in FixItems(ts.items)
      ensures t.Mapping? && !IsScimTag(t)
    {
      var i :| 0 <= i < |ts.items| && FixItems(ts.items)[i] == t;
      assert ts.items[i] in ts.items;
      TagAfterNullEnums(ts.items[i]);
    }
  }

  lemma PathsAfterNullEnums(ps: Tree)
    requires ps.Mapping? && forall k :: k in Keys(ps.entries) ==> !IsScimPath(k)
    ensures FixNullEnums(ps).Mapping?
    ensures forall k :: k in Keys(FixNullEnums(ps).entries) ==> !IsScimPath(k)
  {
    FixTopKeys(ps.entries);
    NullableNotScim();
  }

  /** Repairing the enums keeps the document free of SCIM paths and tags. */
  lemma ScimFreeAfterNullEnums(d: Tree)
    ensures NoScimPaths(d) && NoScimTags(d) ==> NoScimPaths(FixNullEnums(d)) && NoScimTags(FixNullEnums(d))
  {
    if NoScimPaths(d) && NoScimTags(d) {
      FixTopKeys(d.entries);
      if Child(d, "paths").Some? {
        PathsAfterNullEnums(Child(d, "paths").value);
      }
      if Child(d, "tags").Some? {
        TagsAfterNullEnums(Child(d, "tags").value);
      }
    }
  }

  /** Setting a field of an existing operation keeps the path keys. */
  lemma FieldSetKeepsPathKeys(d: Tree, u: Tree, path: string, verb: string, field: string, value: Tree)
    requires FieldSet(d, u, path, verb, field, value)
    ensures Child(u, "paths").Some? && Child(u, "paths").value.Mapping?
    ensures Keys(Child(u, "paths").value.entries) == Keys(Child(d, "paths").value.entries)
  {
    assert HasKey(Child(d, "paths").value.entries, path);
  }

  /** Setting a field of an operation keeps the tags. */
  lemma ChangedPathsKeepsTags(d: Tree, u: Tree)
    requires ChangedAt(d, u, "paths")
    ensures Child(u, "tags") == Child(d, "tags")
  {
  }

  /** Setting the operation id keeps the document free of SCIM paths and
      tags. */
  lemma ScimFreeAfterOperationId(d: Tree)
    ensures NoScimPaths(d) && NoScimTags(d) && FixDocsOperationId(d).Ok? ==>
      NoScimPaths(FixDocsOperationId(d).value) && NoScimTags(FixDocsOperationId(d).value)
  {
    if NoScimPaths(d) && NoScimTags(d) && FixDocsOperationId(d).Ok? {
      var u := FixDocsOperationId(d).value;
      if u != d {
        FieldSetKeepsPathKeys(d, u, "/docs", "post", "operationId", Str("createOrImportDoc"));
        ChangedPathsKeepsTags(d, u);
      }
    }
  }
}

=== FILE: fixups.dfy ===
/**
  The targeted repairs of the fix script: the server entry (fix 1), the
  two single-field overwrites (fixes 2 and 6) and the removal of the SCIM
  endpoints and tag (fixes 3 and 4). Each is a function from the document
  to the repaired document, or to the exception the script would raise on
  a document of an unexpected shape.
 */
module Fixups {
  import opened Strings
  import opened Trees

  /** The value of key `k` when `t` is a mapping that has it. */
  function Child(t: Tree, k: string): Option<Tree> {
    if t.Mapping? then Lookup(t.entries, k) else None
  }

  /** `u` is the mapping `t` with at most key `k` changed, and `k` present;
      a key `t` lacked is appended. */
  ghost predicate ChangedAt(t: Tree, u: Tree, k: string) {
    && t.Mapping? && u.Mapping? && HasKey(u.entries, k)
    && Keys(u.entries) == (if HasKey(t.entries, k) then Keys(t.entries) else Keys(t.entries) + [k])
    && forall k' :: k' != k ==> Lookup(u.entries, k') == Lookup(t.entries, k')
  }

  lemma SetItemChangedAt(t: Tree, k: string, v: Tree)
    requires t.Mapping?
    ensures SetItem(t, k, v).Ok? && ChangedAt(t, SetItem(t, k, v).value, k)
    ensures Child(SetItem(t, k, v).value, k) == Some(v)
  {
    PutLookup(t.entries, k, v);
  }

  // ---------------------------------------------------------------------
  // Fix 1: the server entry
  // ---------------------------------------------------------------------

  const ServerUrl := "https://{subdomain}.getgrist.com/api"
  const ServerDescription := "Grist API server"

  /** `s['url'] = …; s['description'] = …` on the first server. */
  function FixFirstServer(s: Tree): (r: Result<Tree>)
    ensures r.Ok? <==> s.Mapping?
    ensures r.Ok? ==> ServerFixed(s, r.value)
  {
    var s1 :- SetItem(s, "url", Str(ServerUrl));
    SetItem(s1, "description", Str(ServerDescription))
  }

  /** `u` is the server `s` with its URL and description replaced and every
      other field kept. */
  ghost predicate ServerFixed(s: Tree, u: Tree) {
    && s.Mapping? && u.Mapping?
    && Lookup(u.entries, "url") == Some(Str(ServerUrl))
    && Lookup(u.entries, "description") == Some(Str(ServerDescription))
    && forall k :: k != "url" && k != "description" ==> Lookup(u.entries, k) == Lookup(s.entries, k)
  }

  /** `servers` becomes `fixed`: the same list with only its first server
      repaired. */
  ghost predicate ServersFixed(servers: Tree, fixed: Tree) {
    && servers.List? && fixed.List? && |servers.items| > 0
    && |fixed.items| == |servers.items|
    && fixed.items[1..] == servers.items[1..]
    && ServerFixed(servers.items[0], fixed.items[0])
  }

  /** The documents on which fix 1 raises no exception: `'servers' in doc`
      must be defined, and a non-empty `servers` must be a list whose first
      item is a mapping. */
  predicate ServersFixable(doc: Tree) {
    match doc
    case Mapping(es) =>
      (match Lookup(es, "servers")
       case None => true
       case Some(s) =>
         || (s.List? && (s.items == [] || s.items[0].Mapping?))
         || (s.Mapping? && s.entries == [])
         || (s.Str? && s.text == []))
    case List(xs) => Str("servers") !in xs
    case Str(s) => !Contains(s, "servers")
    case _ => false
  }

  /** Fix 1: point the first server at the Grist host pattern. */
  function FixServers(doc: Tree): (r: Result<Tree>)
    ensures r.Ok? <==> ServersFixable(doc)
    ensures doc.Mapping? && !HasKey(doc.entries, "servers") ==> r == Ok(doc)
    ensures Child(doc, "servers") in {Some(List([])), Some(Mapping([])), Some(Str([]))} ==> r == Ok(doc)
    ensures r.Ok? && !doc.Mapping? ==> r.value == doc
    ensures r.Ok? && doc.Mapping? ==> r.value.Mapping? && Keys(r.value.entries) == Keys(doc.entries)
    ensures r.Ok? && doc.Mapping? ==>
      forall k :: k != "servers" ==> Lookup(r.value.entries, k) == Lookup(doc.entries, k)
    ensures r.Ok? && r.value != doc ==>
      ServersFixed(Child(doc, "servers").value, Child(r.value, "servers").value)
    ensures (r.Ok? && Child(doc, "servers").Some? && Child(doc, "servers").value.List?
             && Child(doc, "servers").value.items != []) ==>
      && Child(r.value, "servers").Some?
      && ServersFixed(Child(doc, "servers").value, Child(r.value, "servers").value)
  {
    var has :- In("servers", doc);
    if !has then Ok(doc)
    else
      var servers :- Index(doc, "servers");
      var n :- Len(servers);
      if n == 0 then Ok(doc)
      else
        match servers
        case List(xs) =>
          var first :- FixFirstServer(xs[0]);
          PutLookup(doc.entries, "servers", List(xs[0 := first]));
          SetItem(doc, "servers", List(xs[0 := first]))
        case Mapping(_) => Err(KeyError("0"))
        case _ => Err(TypeError("item assignment"))
  }

  /** Running fix 1 on its own output changes nothing. */
  lemma FixServersIdempotent(doc: Tree)
    requires FixServers(doc).Ok?
    ensures FixServers(FixServers(doc).value) == FixServers(doc)
  {
    var d := FixServers(doc).value;
    if d != doc {
      var xs := Child(d, "servers").value.items;
      FixFirstServerFixed(xs[0]);
      FixServersSettled(d, xs);
    }
  }

  /** A repaired server is left alone by the repair. */
  lemma FixFirstServerFixed(s: Tree)
    requires s.Mapping?
    requires Lookup(s.entries, "url") == Some(Str(ServerUrl))
    requires Lookup(s.entries, "description") == Some(Str(ServerDescription))
    ensures FixFirstServer(s) == Ok(s)
  {
    PutSame(s.entries, "url", Str(ServerUrl));
    PutSame(s.entries, "description", Str(ServerDescription));
  }

  /** Fix 1 leaves a document alone when its first server needs nothing. */
  lemma FixServersSettled(d: Tree, xs: seq<Tree>)
    requires d.Mapping? && Child(d, "servers") == Some(List(xs)) && xs != []
    requires FixFirstServer(xs[0]) == Ok(xs[0])
    ensures FixServers(d) == Ok(d)
  {
    assert xs[0 := xs[0]] == xs;
    PutSame(d.entries, "servers", List(xs));
  }

  // ---------------------------------------------------------------------
  // Fixes 2 and 6: one field of one operation
  // ---------------------------------------------------------------------

  /** The operation object `doc['paths'][path][verb]`, when every step is
      a mapping lookup that succeeds. */
  function Operation(doc: Tree, path: string, verb: string): Option<Tree> {
    match Child(doc, "paths")
    case Some(ps) =>
      (match Child(ps, path)
       case Some(ep) => Child(ep, verb)
       case None => None)
    case None => None
  }

  /** `if path in doc.get('paths', {}) and verb in doc['paths'][path]:
      doc['paths'][path][verb][field] = value`. */
  function OverwriteField(doc: Tree, path: string, verb: string, field: string, value: Tree): (r: Result<Tree>)
    ensures !doc.Mapping? ==> r.Err?
    ensures doc.Mapping? && !HasKey(doc.entries, "paths") ==> r == Ok(doc)
    ensures (Child(doc, "paths").Some? && Child(doc, "paths").value.Mapping?
             && !HasKey(Child(doc, "paths").value.entries, path)) ==> r == Ok(doc)
    ensures (Child(doc, "paths").Some? && Child(Child(doc, "paths").value, path).Some?
             && Child(Child(doc, "paths").value, path).value.Mapping?
             && !HasKey(Child(Child(doc, "paths").value, path).value.entries, verb)) ==> r == Ok(doc)
    ensures Operation(doc, path, verb).Some? ==>
      (r.Ok? <==> Operation(doc, path, verb).value.Mapping?)
    ensures r.Ok? && r.value != doc ==> Operation(doc, path, verb).Some?
    ensures r.Ok? && Operation(doc, path, verb).Some? ==> FieldSet(doc, r.value, path, verb, field, value)
  {
    var paths :- GetOr(doc, "paths", Mapping([]));
    var hasPath :- In(path, paths);
    if !hasPath then Ok(doc)
    else
      var endpoint :- Index(paths, path);
      var hasMethod :- In(verb, endpoint);
      if !hasMethod then Ok(doc)
      else
        var op :- Index(endpoint, verb);
        var op' :- SetItem(op, field, value);
        var endpoint' := SetItem(endpoint, verb, op').value;
        var paths' := SetItem(paths, path, endpoint').value;
        SetItemChangedAt(op, field, value);
        SetItemChangedAt(endpoint, verb, op');
        SetItemChangedAt(paths, path, endpoint');
        SetItemChangedAt(doc, "paths", paths');
        SetItem(doc, "paths", paths')
  }

  /** `u` is `doc` with `doc['paths'][path][verb][field]` set to `value`
      and nothing else changed, at any level. */
  ghost predicate FieldSet(doc: Tree, u: Tree, path: string, verb: string, field: string, value: Tree) {
    && Operation(doc, path, verb).Some?
    && ChangedAt(doc, u, "paths")
    && var ps, ps' := Child(doc, "paths").value, Child(u, "paths").value;
    && ChangedAt(ps, ps', path)
    && var ep, ep' := Child(ps, path).value, Child(ps', path).value;
    && ChangedAt(ep, ep', verb)
    && var op, op' := Child(ep, verb).value, Child(ep', verb).value;
    && ChangedAt(op, op', field)
    && Child(op', field) == Some(value)
  }

  /** Overwriting a field with the value it already holds changes nothing. */
  lemma OverwriteFieldIdempotent(doc: Tree, path: string, verb: string, field: string, value: Tree)
    requires OverwriteField(doc, path, verb, field, value).Ok?
    ensures var d := OverwriteField(doc, path, verb, field, value).value;
      OverwriteField(d, path, verb, field, value) == Ok(d)
  {
    var d := OverwriteField(doc, path, verb, field, value).value;
    if d != doc {
      var ps := Child(d, "paths").value;
      var ep := Child(ps, path).value;
      var op := Child(ep, verb).value;
      PutSame(op.entries, field, value);
      PutSame(ep.entries, verb, op);
      PutSame(ps.entries, path, ep);
      PutSame(d.entries, "paths", ps);
    }
  }

  const StatesRemovePath := "/docs/{docId}/states/remove"

  /** The response table fix 2 installs. */
  const SuccessResponses := Mapping([("200", Mapping([("description", Str("Success"))]))])

  /** Fix 2: give the states-removal operation a success response. */
  function FixStatesRemoveResponses(doc: Tree): (r: Result<Tree>)
    ensures Operation(doc, StatesRemovePath, "post").None? && r.Ok? ==> r.value == doc
    ensures Operation(doc, StatesRemovePath, "post").Some? ==>
      (r.Ok? <==> Operation(doc, StatesRemovePath, "post").value.Mapping?)
    ensures r.Ok? && Operation(doc, StatesRemovePath, "post").Some? ==>
      FieldSet(doc, r.value, StatesRemovePath, "post", "responses", SuccessResponses)
  {
    OverwriteField(doc, StatesRemovePath, "post", "responses", SuccessResponses)
  }

  /** Fix 6: give the document-creation operation a unique id. */
  function FixDocsOperationId(doc: Tree): (r: Result<Tree>)
    ensures Operation(doc, "/docs", "post").None? && r.Ok? ==> r.value == doc
    ensures Operation(doc, "/docs", "post").Some? ==>
      (r.Ok? <==> Operation(doc, "/docs", "post").value.Mapping?)
    ensures r.Ok? && Operation(doc, "/docs", "post").Some? ==>
      FieldSet(doc, r.value, "/docs", "post", "operationId", Str("createOrImportDoc"))
  {
    OverwriteField(doc, "/docs", "post", "operationId", Str("createOrImportDoc"))
  }

  // ---------------------------------------------------------------------
  // Fixes 3 and 4: the SCIM endpoints and tag
  // ---------------------------------------------------------------------

  const ScimPrefix := "/scim/"

  predicate IsScimPath(k: string) {
    StartsWith(k, ScimPrefix)
  }

  /** `[k for k in paths.keys() if k.startswith('/scim/')]`. */
  function ScimKeys(es: Entries): (ks: seq<string>)
    ensures forall k :: k in ks <==> k in Keys(es) && IsScimPath(k)
  {
    if es == [] then []
    else if IsScimPath(es[0].0) then [es[0].0] + ScimKeys(es[1..])
    else ScimKeys(es[1..])
  }

  /** The mapping after `del d[k]` for every `k` in `ks`. */
  function Delete(es: Entries, ks: seq<string>): (r: Entries)
    ensures forall e :: e in r <==> e in es && e.0 !in ks
    ensures Subsequence(r, es)
  {
    if es == [] then []
    else if es[0].0 in ks then
      assert es == [es[0]] + es[1..];
      Delete(es[1..], ks)
    else
      assert es == [es[0]] + es[1..];
      assert ([es[0]] + Delete(es[1..], ks))[1..] == Delete(es[1..], ks);
      [es[0]] + Delete(es[1..], ks)
  }

  /** Fix 3: delete every path under `/scim/`. */
  function RemoveScimPaths(doc: Tree): (r: Result<Tree>)
    ensures r.Ok? <==> doc.Mapping? && (Child(doc, "paths").Some? ==> Child(doc, "paths").value.Mapping?)
    ensures r.Ok? ==> r.value.Mapping? && Keys(r.value.entries) == Keys(doc.entries)
    ensures r.Ok? ==> forall k :: k != "paths" ==> Lookup(r.value.entries, k) == Lookup(doc.entries, k)
    ensures doc.Mapping? && !HasKey(doc.entries, "paths") ==> r == Ok(doc)
    ensures r.Ok? && Child(doc, "paths").Some? ==>
      Child(r.value, "paths").Some? && PathsFiltered(Child(doc, "paths").value, Child(r.value, "paths").value)
    ensures r.Ok? ==> NoScimPaths(r.value)
  {
    var paths :- GetOr(doc, "paths", Mapping([]));
    if !paths.Mapping? then Err(AttributeError("keys"))
    else
      var scim := ScimKeys(paths.entries);
      if scim == [] then
        assert Delete(paths.entries, scim) == paths.entries by {
          DeleteNothing(paths.entries, scim);
        }
        Ok(doc)
      else
        PutLookup(doc.entries, "paths", Mapping(Delete(paths.entries, scim)));
        SetItem(doc, "paths", Mapping(Delete(paths.entries, scim)))
  }

  /** `u` holds exactly the entries of `t` whose key is not a SCIM path,
      in their order. */
  ghost predicate PathsFiltered(t: Tree, u: Tree) {
    && t.Mapping? && u.Mapping?
    && (forall e :: e in u.entries <==> e in t.entries && !IsScimPath(e.0))
    && Subsequence(u.entries, t.entries)
  }

  /** The document has no path under `/scim/`. */
  ghost predicate NoScimPaths(doc: Tree) {
    && doc.Mapping?
    && (Child(doc, "paths").Some? ==>
        && Child(doc, "paths").value.Mapping?
        && forall k :: k in Keys(Child(doc, "paths").value.entries) ==> !IsScimPath(k))
  }

  /** The document's tags, if any, are a list of mappings none of which is
      the SCIM tag. */
  ghost predicate NoScimTags(doc: Tree) {
    && doc.Mapping?
    && (Child(doc, "tags").Some? ==>
        && Child(doc, "tags").value.List?
        && forall t :: t in Child(doc, "tags").value.items ==> t.Mapping? && !IsScimTag(t))
  }

  /** Deleting keys a mapping lacks leaves it as it is. */
  lemma {:induction false} DeleteNothing(es: Entries, ks: seq<string>)
    requires forall k :: k in ks ==> !HasKey(es, k)
    ensures Delete(es, ks) == es
  {
    if es != [] {
      assert es[0].0 == Keys(es)[0];
      assert forall k :: HasKey(es[1..], k) ==> HasKey(es, k) by {
        assert forall i :: 0 <= i < |es[1..]| ==> Keys(es[1..])[i] == Keys(es)[i + 1];
      }
      DeleteNothing(es[1..], ks);
    }
  }

  /** The tag is the SCIM tag: `tag.get('name') == 'scim'`. */
  predicate IsScimTag(t: Tree)
    requires t.Mapping?
  {
    Lookup(t.entries, "name") == Some(Str("scim"))
  }

  /** `[tag for tag in tags if tag.get('name') != 'scim']`; `get` needs every
      tag to be a mapping. */
  function KeepNonScim(tags: seq<Tree>): (r: Result<seq<Tree>>)
    ensures r.Ok? <==> forall i :: 0 <= i < |tags| ==> tags[i].Mapping?
    ensures r.Ok? ==> forall t :: t in r.value <==> t in tags && !IsScimTag(t)
    ensures r.Ok? ==> Subsequence(r.value, tags)
    ensures r.Ok? ==> forall t :: t in tags && !IsScimTag(t) ==> multiset(r.value)[t] == multiset(tags)[t]
  {
    if tags == [] then Ok([])
    else if !tags[0].Mapping? then Err(AttributeError("get"))
    else
      var rest :- KeepNonScim(tags[1..]);
      assert tags == [tags[0]] + tags[1..];
      KeptCountStep(tags, rest);
      if IsScimTag(tags[0]) then Ok(rest)
      else
        assert ([tags[0]] + rest)[1..] == rest;
        Ok([tags[0]] + rest)
  }

  /** One step of the filter keeps the count of every tag it keeps. */
  lemma KeptCountStep(tags: seq<Tree>, rest: seq<Tree>)
    requires tags != [] && forall i :: 0 <= i < |tags| ==> tags[i].Mapping?
    requires forall t :: t in rest ==> t in tags[1..]
    requires forall t :: t in tags[1..] && !IsScimTag(t) ==> multiset(rest)[t] == multiset(tags[1..])[t]
    ensures var r := if IsScimTag(tags[0]) then rest else [tags[0]] + rest;
      forall t :: t in tags && !IsScimTag(t) ==> multiset(r)[t] == multiset(tags)[t]
  {
    assert tags == [tags[0]] + tags[1..];
    assert multiset(tags) == multiset([tags[0]]) + multiset(tags[1..]);
    assert multiset([tags[0]] + rest) == multiset([tags[0]]) + multiset(rest);
  }

  /** Fix 4: drop the SCIM tag from the tag list. */
  function RemoveScimTag(doc: Tree): (r: Result<Tree>)
    ensures doc.Mapping? && !HasKey(doc.entries, "tags") ==> r == Ok(doc)
    ensures Child(doc, "tags").Some? && Child(doc, "tags").value.List? ==>
      (r.Ok? <==> forall t :: t in Child(doc, "tags").value.items ==> t.Mapping?)
    ensures r.Ok? && Child(doc, "tags").Some? ==>
      && r.value.Mapping? && Keys(r.value.entries) == Keys(doc.entries)
      && (forall k :: k != "tags" ==> Lookup(r.value.entries, k) == Lookup(doc.entries, k))
      && NoScimTags(r.value)
    ensures r.Ok? && Child(doc, "tags").Some? && Child(doc, "tags").value.List? ==>
      var ts, ts' := Child(doc, "tags").value.items, Child(r.value, "tags").value.items;
      && (forall t :: t in ts' <==> t in ts && !IsScimTag(t))
      && Subsequence(ts', ts)
      && (forall t :: t in ts && !IsScimTag(t) ==> multiset(ts')[t] == multiset(ts)[t])
  {
    var has :- In("tags", doc);
    if !has then Ok(doc)
    else
      var tags :- Index(doc, "tags");
      var items :- Iterate(tags);
      var kept :- KeepNonScim(items);
      PutLookup(doc.entries, "tags", List(kept));
      SetItem(doc, "tags", List(kept))
  }

  /** Fixes 3 and 4 in order. */
  function RemoveScim(doc: Tree): (r: Result<Tree>)
    ensures r.Ok? ==> NoScimPaths(r.value) && NoScimTags(r.value)
    ensures r.Ok? ==> doc.Mapping? && r.value.Mapping?
    ensures r.Ok? ==> forall k :: k != "paths" && k != "tags" ==> Lookup(r.value.entries, k) == Lookup(doc.entries, k)
  {
    var d :- RemoveScimPaths(doc);
    RemoveScimTag(d)
  }
}

=== FILE: merge.dfy ===
/**
  The body of the merge script's `main`, without the file handling and the
  report: collect the comprehensive paths the official document lacks
  (under their normalized keys, converted), insert them into the official
  `paths`, then append the curated tags the official document does not
  name yet.
 */
module Merge {
  import opened Strings
  import opened Trees
  import opened PathNormalizer
  import opened ParamNames
  import opened ParamRefs

  // ---------------------------------------------------------------------
  // get_paths_from_schema
  // ---------------------------------------------------------------------

  /** The `paths` mapping of a document, when it has one. */
  function PathsOf(doc: Tree): Option<Entries> {
    if doc.Mapping? && Lookup(doc.entries, "paths").Some? && Lookup(doc.entries, "paths").value.Mapping? then
      Some(Lookup(doc.entries, "paths").value.entries)
    else None
  }

  /** The path keys of a document; none when it has no `paths` mapping. */
  function PathKeys(doc: Tree): set<string> {
    if PathsOf(doc).Some? then KeySet(PathsOf(doc).value) else {}
  }

  /** `set(schema['paths'].keys())` when `'paths' in schema`, else the empty
      set; `.keys()` on anything but a mapping raises. */
  function GetPathsFromSchema(schema: Tree): (r: Result<set<string>>)
    ensures schema.Mapping? ==>
      (r.Ok? <==> Lookup(schema.entries, "paths").None? || PathsOf(schema).Some?)
    ensures r.Ok? && schema.Mapping? ==> r.value == PathKeys(schema)
    ensures r.Ok? && r.value != {} ==> PathsOf(schema).Some?
    ensures !(schema.Mapping? || schema.List? || schema.Str?) ==> r.Err?
  {
    var has :- In("paths", schema);
    if !has then Ok({})
    else
      var paths :- Index(schema, "paths");
      if paths.Mapping? then Ok(KeySet(paths.entries)) else Err(AttributeError("keys"))
  }

  // ---------------------------------------------------------------------
  // The missing paths (lines 124-137)
  // ---------------------------------------------------------------------

  /** A staged path object: parameter names, then parameter references. */
  function Converted(v: Tree): Tree {
    ConvertParamRefs(ConvertParamNames(v))
  }

  /** The normalized keys of `es` that are not in `present`. */
  function NewKeys(es: Entries, present: set<string>): set<string> {
    set p | p in Keys(es) && NormalizePath(p) !in present :: NormalizePath(p)
  }

  /** Every path object that will be staged has hashable parameter names. */
  predicate StageableFrom(es: Entries, present: set<string>) {
    forall i :: 0 <= i < |es| && NormalizePath(es[i].0) !in present ==> Hashable(es[i].1)
  }

  /** The loop over `comprehensive['paths'].items()`, staging into `acc`. */
  function CollectMissing(es: Entries, present: set<string>, acc: Entries): (r: Result<Entries>)
    ensures r.Ok? <==> StageableFrom(es, present)
    ensures r.Ok? ==> KeySet(r.value) == KeySet(acc) + NewKeys(es, present)
    decreases |es|
  {
    if es == [] then Ok(acc)
    else
      var np := NormalizePath(es[0].0);
      NewKeysCons(es, present);
      StageableCons(es, present);
      if np in present then
        CollectMissing(es[1..], present, acc)
      else
        match ConvertPathObject(es[0].1)
        case Err(f) => Err(f)
        case Ok(obj) =>
          PutKeySet(acc, np, ConvertParamRefs(obj));
          CollectMissing(es[1..], present, Put(acc, np, ConvertParamRefs(obj)))
  }

  /** The staged mapping keeps distinct keys. */
  lemma {:induction false} CollectMissingUnique(es: Entries, present: set<string>, acc: Entries)
    requires CollectMissing(es, present, acc).Ok? && UniqueKeys(acc)
    ensures UniqueKeys(CollectMissing(es, present, acc).value)
    decreases |es|
  {
    if es != [] {
      var np := NormalizePath(es[0].0);
      if np in present {
        CollectMissingUnique(es[1..], present, acc);
      } else {
        var v := ConvertParamRefs(ConvertPathObject(es[0].1).value);
        PutKeepsUnique(acc, np, v);
        CollectMissingUnique(es[1..], present, Put(acc, np, v));
      }
    }
  }

  lemma NewKeysCons(es: Entries, present: set<string>)
    requires es != []
    ensures NewKeys(es, present) ==
      (if NormalizePath(es[0].0) in present then {} else {NormalizePath(es[0].0)}) + NewKeys(es[1..], present)
  {
    assert Keys(es) == [es[0].0] + Keys(es[1..]);
  }

  lemma StageableCons(es: Entries, present: set<string>)
    requires es != []
    ensures StageableFrom(es, present) <==>
      (NormalizePath(es[0].0) !in present ==> Hashable(es[0].1)) && StageableFrom(es[1..], present)
  {
    assert forall i :: 1 <= i < |es| ==> es[i] == es[1..][i - 1];
  }

  /** The value staged under normalized key `k`: the converted object of
      the last entry that normalizes to `k`, when `k` is new. */
  function StagedValue(es: Entries, present: set<string>, k: string): (r: Option<Tree>)
    ensures r.Some? <==> k in NewKeys(es, present)
    decreases |es|
  {
    if es == [] then None
    else
      NewKeysCons(es, present);
      match StagedValue(es[1..], present, k)
      case Some(v) => Some(v)
      case None =>
        if NormalizePath(es[0].0) == k && k !in present then Some(Converted(es[0].1)) else None
  }

  /** The last entry normalizing to a new key is the one staged: later
      entries overwrite earlier ones. */
  lemma {:induction false} StagedValueIsLast(es: Entries, present: set<string>, k: string)
    requires StagedValue(es, present, k).Some?
    ensures exists i :: (0 <= i < |es| && NormalizePath(es[i].0) == k
      && StagedValue(es, present, k).value == Converted(es[i].1)
      && forall j :: i < j < |es| ==> NormalizePath(es[j].0) != k)
    decreases |es|
  {
    if StagedValue(es[1..], present, k).Some? {
      StagedValueIsLast(es[1..], present, k);
      var i :| 0 <= i < |es[1..]| && NormalizePath(es[1..][i].0) == k
        && StagedValue(es[1..], present, k).value == Converted(es[1..][i].1)
        && forall j :: i < j < |es[1..]| ==> NormalizePath(es[1..][j].0) != k;
      LastInTail(es, k, i);
    } else {
      LastIsHead(es, present, k);
    }
  }

  lemma LastInTail(es: Entries, k: string, i: nat)
    requires 0 <= i < |es| - 1
    requires forall j :: i < j < |es[1..]| ==> NormalizePath(es[1..][j].0) != k
    ensures forall j :: i + 1 < j < |es| ==> NormalizePath(es[j].0) != k
  {
    forall j | i + 1 < j < |es|
      ensures NormalizePath(es[j].0) != k
    {
      assert es[j] == es[1..][j - 1];
    }
  }

  lemma LastIsHead(es: Entries, present: set<string>, k: string)
    requires StagedValue(es, present, k).Some? && StagedValue(es[1..], present, k).None?
    ensures NormalizePath(es[0].0) == k && StagedValue(es, present, k).value == Converted(es[0].1)
    ensures forall j :: 0 < j < |es| ==> NormalizePath(es[j].0) != k
  {
    NewKeysCons(es, present);
    forall j | 0 < j < |es|
      ensures NormalizePath(es[j].0) != k
    {
      assert es[j] == es[1..][j - 1];
      assert es[j].0 in Keys(es[1..]);
    }
  }

  /** What the staging loop stores under each key. */
  lemma {:induction false} CollectMissingLookup(es: Entries, present: set<string>, acc: Entries)
    requires CollectMissing(es, present, acc).Ok?
    ensures forall k :: (Lookup(CollectMissing(es, present, acc).value, k) ==
      if StagedValue(es, present, k).Some? then StagedValue(es, present, k) else Lookup(acc, k))
    decreases |es|
  {
    if es != [] {
      NewKeysCons(es, present);
      var np := NormalizePath(es[0].0);
      if np in present {
        CollectMissingLookup(es[1..], present, acc);
      } else {
        var obj := ConvertPathObject(es[0].1).value;
        var acc' := Put(acc, np, ConvertParamRefs(obj));
        PutLookup(acc, np, ConvertParamRefs(obj));
        CollectMissingLookup(es[1..], present, acc');
      }
    }
  }

  // ---------------------------------------------------------------------
  // Insertion (lines 172-174)
  // ---------------------------------------------------------------------

  /** `official['paths'][path] = path_obj` for every staged path; nothing is
      touched when there is nothing to insert. */
  function InsertPaths(official: Tree, missing: Entries): (r: Result<Tree>)
    ensures missing == [] ==> r == Ok(official)
    ensures missing != [] ==> (r.Ok? <==> PathsOf(official).Some?)
    ensures missing != [] && r.Ok? ==> r.value.Mapping? && Keys(r.value.entries) == Keys(official.entries)
    ensures missing != [] && r.Ok? ==>
      forall k :: k != "paths" ==> Lookup(r.value.entries, k) == Lookup(official.entries, k)
    ensures missing != [] && r.Ok? ==> PathsOf(r.value) == Some(PutAll(PathsOf(official).value, missing))
  {
    if missing == [] then Ok(official)
    else
      var paths :- Index(official, "paths");
      if paths.Mapping? then
        var ps := PutAll(paths.entries, missing);
        PutLookup(official.entries, "paths", Mapping(ps));
        Ok(Mapping(Put(official.entries, "paths", Mapping(ps))))
      else Err(TypeError("item assignment"))
  }

  // ---------------------------------------------------------------------
  // Curated tags (lines 176-193)
  // ---------------------------------------------------------------------

  /** The curated tags, as `(name, description)`, in the order appended. */
  const CuratedTags: seq<(string, string)> := [
    ("admin", "Installation administration endpoints"),
    ("profile", "User profile management"),
    ("sessions", "Session management"),
    ("service-accounts", "Service account management for API access"),
    ("templates", "Template documents"),
    ("snapshots", "Document version snapshots"),
    ("proposals", "Document change proposals"),
    ("forms", "Grist forms"),
    ("timing", "Document timing and performance"),
    ("ai", "AI assistant features")
  ]

  function TagTree(tag: (string, string)): Tree {
    Mapping([("name", Str(tag.0)), ("description", Str(tag.1))])
  }

  function TagTrees(tags: seq<(string, string)>): (r: seq<Tree>)
    ensures |r| == |tags|
    ensures forall i :: 0 <= i < |tags| ==> r[i] == TagTree(tags[i])
  {
    seq(|tags|, i requires 0 <= i < |tags| => TagTree(tags[i]))
  }

  /** `{tag['name'] for tag in items}`: every item must be a mapping with a
      `name`, and the name must be hashable. */
  function TagNames(items: seq<Tree>): (r: Result<set<Tree>>)
    ensures r.Ok? <==> forall i :: 0 <= i < |items| ==> ReadableTag(items[i])
    decreases |items|
  {
    if items == [] then Ok({})
    else
      ReadableCons(items);
      var n :- Index(items[0], "name");
      if n.Mapping? || n.List? then Err(TypeError("unhashable type"))
      else
        match TagNames(items[1..])
        case Err(f) => Err(f)
        case Ok(rest) => Ok({n} + rest)
  }

  lemma ReadableCons(items: seq<Tree>)
    requires items != []
    ensures (forall i :: 0 <= i < |items| ==> ReadableTag(items[i])) <==>
      ReadableTag(items[0]) && forall i :: 0 <= i < |items[1..]| ==> ReadableTag(items[1..][i])
  {
    assert forall i :: 1 <= i < |items| ==> items[i] == items[1..][i - 1];
  }

  /** The name set holds exactly the names the items carry. */
  lemma TagNamesMembers(items: seq<Tree>)
    requires TagNames(items).Ok?
    ensures forall n :: n in TagNames(items).value <==>
      exists i :: 0 <= i < |items| && Lookup(items[i].entries, "name") == Some(n)
  {
    forall n | n in TagNames(items).value
      ensures exists i :: 0 <= i < |items| && Lookup(items[i].entries, "name") == Some(n)
    {
      TagNameSource(items, n);
    }
    forall i | 0 <= i < |items|
      ensures Lookup(items[i].entries, "name").value in TagNames(items).value
    {
      TagNameCollected(items, i);
    }
  }

  lemma {:induction false} TagNameSource(items: seq<Tree>, n: Tree)
    requires TagNames(items).Ok? && n in TagNames(items).value
    ensures exists i :: 0 <= i < |items| && Lookup(items[i].entries, "name") == Some(n)
    decreases |items|
  {
    TagNamesCons(items);
    if n != Lookup(items[0].entries, "name").value {
      TagNameSource(items[1..], n);
      var i :| 0 <= i < |items[1..]| && Lookup(items[1..][i].entries, "name") == Some(n);
      assert items[i + 1] == items[1..][i];
    }
  }

  lemma {:induction false} TagNameCollected(items: seq<Tree>, i: nat)
    requires TagNames(items).Ok? && i < |items|
    ensures items[i].Mapping? && Lookup(items[i].entries, "name").Some?
    ensures Lookup(items[i].entries, "name").value in TagNames(items).value
    decreases i
  {
    TagNamesCons(items);
    if i > 0 {
      TagNameCollected(items[1..], i - 1);
      assert items[1..][i - 1] == items[i];
    }
  }

  lemma TagNamesCons(items: seq<Tree>)
    requires items != [] && TagNames(items).Ok?
    ensures TagNames(items[1..]).Ok?
    ensures TagNames(items).value == {Lookup(items[0].entries, "name").value} + TagNames(items[1..]).value
  {
  }

  /** An existing tag the name set can read. */
  predicate ReadableTag(t: Tree) {
    t.Mapping? && Lookup(t.entries, "name").Some?
    && !Lookup(t.entries, "name").value.Mapping? && !Lookup(t.entries, "name").value.List?
  }

  /** The curated tags whose name is not among `names`, in list order. */
  function AbsentTags(tags: seq<(string, string)>, names: set<Tree>): (r: seq<(string, string)>)
    ensures forall e :: e in r <==> e in tags && Str(e.0) !in names
    ensures Subsequence(r, tags)
    decreases |tags|
  {
    if tags == [] then []
    else
      var rest := AbsentTags(tags[1..], names);
      assert forall e :: e in tags <==> e == tags[0] || e in tags[1..];
      if Str(tags[0].0) in names then rest else [tags[0]] + rest
  }

  /** The tag list of a document: its `tags` list, or none. */
  function TagList(doc: Tree): seq<Tree> {
    if doc.Mapping? && Lookup(doc.entries, "tags").Some? && Lookup(doc.entries, "tags").value.List? then
      Lookup(doc.entries, "tags").value.items
    else []
  }

  /** `official.setdefault('tags', []).append(tag)` for each tag in turn. */
  function AppendTags(doc: Tree, ts: seq<Tree>): (r: Result<Tree>)
    requires doc.Mapping?
    ensures r.Ok? <==> Lookup(doc.entries, "tags").None? || Lookup(doc.entries, "tags").value.List?
    ensures r.Ok? ==> r.value.Mapping? && TagList(r.value) == TagList(doc) + ts
    ensures r.Ok? ==> forall k :: k != "tags" ==> Lookup(r.value.entries, k) == Lookup(doc.entries, k)
  {
    var tags := Lookup(doc.entries, "tags");
    if tags.Some? && !tags.value.List? then Err(AttributeError("append"))
    else
      var xs := TagList(doc);
      PutLookup(doc.entries, "tags", List(xs + ts));
      Ok(Mapping(Put(doc.entries, "tags", List(xs + ts))))
  }

  /** Lines 177-193. The name set is built once, before any tag is
      appended. */
  function AddTags(official: Tree, curated: seq<(string, string)>): (r: Result<Tree>)
    ensures !official.Mapping? ==> r.Err?
    ensures r.Ok? ==> r.value.Mapping?
    ensures r.Ok? ==> forall k :: k != "tags" ==> Lookup(r.value.entries, k) == Lookup(official.entries, k)
  {
    var tags :- GetOr(official, "tags", List([]));
    var items :- Iterate(tags);
    var names :- TagNames(items);
    var absent := AbsentTags(curated, names);
    if absent == [] then Ok(official) else AppendTags(official, TagTrees(absent))
  }

  /** The names the existing tag list carries. */
  function ExistingNames(doc: Tree): set<Tree> {
    set t | t in TagList(doc) && t.Mapping? && Lookup(t.entries, "name").Some? :: Lookup(t.entries, "name").value
  }

  /** A tag list the script can read and extend. */
  predicate TagsReadable(doc: Tree) {
    && doc.Mapping?
    && (Lookup(doc.entries, "tags").None? || Lookup(doc.entries, "tags").value.List?)
    && forall i :: 0 <= i < |TagList(doc)| ==> ReadableTag(TagList(doc)[i])
  }

  /** The tag step on a readable tag list: it succeeds, the old tags stay
      as a prefix in order, and exactly the curated tags whose names were
      absent follow, in curated order. */
  lemma AddTagsAppendsAbsent(official: Tree, curated: seq<(string, string)>)
    requires TagsReadable(official)
    ensures AddTags(official, curated).Ok?
    ensures var r := AddTags(official, curated).value;
      TagList(r) == TagList(official) + TagTrees(AbsentTags(curated, ExistingNames(official)))
  {
    var items := TagList(official);
    assert GetOr(official, "tags", List([])) == Ok(List(items));
    TagNamesReadable(official);
    var absent := AbsentTags(curated, ExistingNames(official));
    assert AddTags(official, curated) == if absent == [] then Ok(official) else AppendTags(official, TagTrees(absent));
    if absent == [] {
      assert items + TagTrees(absent) == items;
    }
  }

  /** On a readable tag list the name set is the set of existing names. */
  lemma TagNamesReadable(doc: Tree)
    requires TagsReadable(doc)
    ensures TagNames(TagList(doc)) == Ok(ExistingNames(doc))
  {
    var items := TagList(doc);
    var names := TagNames(items).value;
    TagNamesMembers(items);
    forall n
      ensures n in names <==> n in ExistingNames(doc)
    {
      if n in names {
        var i :| 0 <= i < |items| && Lookup(items[i].entries, "name") == Some(n);
        assert items[i] in items;
      }
    }
    assert names == ExistingNames(doc);
  }

  /** A curated tag whose name is already present is not appended again,
      and every appended tag carries a name that was absent. */
  lemma AbsentTagsNoDuplicates(names: set<Tree>)
    ensures forall e :: e in CuratedTags && Str(e.0) in names ==> e !in AbsentTags(CuratedTags, names)
    ensures forall e :: e in AbsentTags(CuratedTags, names) ==> Str(e.0) !in names
  {
  }

  // ---------------------------------------------------------------------
  // The whole merge
  // ---------------------------------------------------------------------

  /** `.items()` on the comprehensive paths. */
  function ItemsOf(t: Tree): (r: Result<Entries>)
    ensures r.Ok? <==> t.Mapping?
    ensures r.Ok? ==> r.value == t.entries
  {
    if t.Mapping? then Ok(t.entries) else Err(AttributeError("items"))
  }

  /** The staged paths of a merge, before insertion: the comprehensive
      paths whose normalized key is new, keyed by that key, each holding the
      converted object of the last path normalizing to it. */
  function Staged(official: Tree, comprehensive: Tree): (r: Result<Entries>)
    ensures r.Ok? ==> PathsOf(comprehensive).Some? && UniqueKeys(r.value)
    ensures r.Ok? && official.Mapping? ==>
      && KeySet(r.value) == NewKeys(PathsOf(comprehensive).value, PathKeys(official))
      && forall k :: k in KeySet(r.value) ==>
        Lookup(r.value, k) == StagedValue(PathsOf(comprehensive).value, PathKeys(official), k)
  {
    var present :- GetPathsFromSchema(official);
    var compPaths :- Index(comprehensive, "paths");
    var es :- ItemsOf(compPaths);
    var staged := CollectMissing(es, present, []);
    if staged.Ok? then
      CollectMissingUnique(es, present, []);
      CollectMissingLookup(es, present, []);
      staged
    else staged
  }

  /** `main` between loading and writing, for a given curated tag list:
      stage, insert, add tags. */
  function MergeWith(official: Tree, comprehensive: Tree, curated: seq<(string, string)>): (r: Result<Tree>)
    ensures !official.Mapping? ==> r.Err?
    ensures r.Ok? ==> PathsOf(comprehensive).Some?
    ensures (official.Mapping? && PathsOf(official).Some? && comprehensive.Mapping?
      && Lookup(comprehensive.entries, "paths").None?) ==> r == Err(KeyError("paths"))
  {
    var missing :- Staged(official, comprehensive);
    var inserted :- InsertPaths(official, missing);
    AddTags(inserted, curated)
  }

  /** The merge script with its own curated tags: the official path keys
      plus every normalized comprehensive key, and, on a readable tag list,
      the official tags followed by the curated tags they lacked. */
  function Merge(official: Tree, comprehensive: Tree): (r: Result<Tree>)
    ensures !official.Mapping? ==> r.Err?
    ensures r.Ok? ==> PathsOf(comprehensive).Some?
    ensures r.Ok? ==>
      PathKeys(r.value) == PathKeys(official) + (set p | p in Keys(PathsOf(comprehensive).value) :: NormalizePath(p))
    ensures r.Ok? && TagsReadable(official) ==>
      TagList(r.value) == TagList(official) + TagTrees(AbsentTags(CuratedTags, ExistingNames(official)))
  {
    var merged := MergeWith(official, comprehensive, CuratedTags);
    if merged.Ok? then
      MergePaths(official, comprehensive, CuratedTags, merged.value);
      if TagsReadable(official) then
        MergeTags(official, comprehensive, CuratedTags);
        merged
      else merged
    else merged
  }

  /** A successful merge went through all three stages. */
  lemma MergeStages(official: Tree, comprehensive: Tree, curated: seq<(string, string)>)
    requires MergeWith(official, comprehensive, curated).Ok?
    ensures official.Mapping? && Staged(official, comprehensive).Ok?
    ensures InsertPaths(official, Staged(official, comprehensive).value).Ok?
  {
  }

  lemma MergeLastStage(official: Tree, comprehensive: Tree, curated: seq<(string, string)>)
    requires MergeWith(official, comprehensive, curated).Ok?
    requires Staged(official, comprehensive).Ok?
    requires InsertPaths(official, Staged(official, comprehensive).value).Ok?
    ensures MergeWith(official, comprehensive, curated)
      == AddTags(InsertPaths(official, Staged(official, comprehensive).value).value, curated)
  {
  }

  /** Inserting staged paths whose keys the official paths lack appends
      them after the official paths. */
  lemma InsertAppends(official: Tree, missing: Entries)
    requires InsertPaths(official, missing).Ok? && missing != []
    requires UniqueKeys(missing)
    requires forall k :: k in Keys(missing) ==> k !in PathKeys(official)
    ensures PathsOf(InsertPaths(official, missing).value) == Some(PathsOf(official).value + missing)
  {
    PutAllAppends(PathsOf(official).value, missing);
  }

  /** Insertion leaves the tag list alone. */
  lemma InsertKeepsTags(official: Tree, missing: Entries)
    requires InsertPaths(official, missing).Ok?
    ensures TagList(InsertPaths(official, missing).value) == TagList(official)
    ensures ExistingNames(InsertPaths(official, missing).value) == ExistingNames(official)
    ensures TagsReadable(official) ==> TagsReadable(InsertPaths(official, missing).value)
  {
  }

  /** Looking up a key of the appended part. */
  lemma LookupAppended(ps: Entries, missing: Entries)
    requires forall k :: k in Keys(missing) ==> !HasKey(ps, k)
    ensures KeySet(ps + missing) == KeySet(ps) + KeySet(missing)
    ensures forall k :: k in KeySet(missing) ==> Lookup(ps + missing, k) == Lookup(missing, k)
  {
    KeysAppend(ps, missing);
    forall k | k in KeySet(missing)
      ensures Lookup(ps + missing, k) == Lookup(missing, k)
    {
      LookupAppend(ps, missing, k);
    }
  }

  /** Merge on the path level: the official paths stay first with their
      values, and the new keys are exactly the normalized comprehensive
      keys the official document lacked, holding the converted object of
      the last comprehensive path that normalizes to them. */
  lemma MergePaths(official: Tree, comprehensive: Tree, curated: seq<(string, string)>, r: Tree)
    requires MergeWith(official, comprehensive, curated) == Ok(r)
    ensures PathsOf(comprehensive).Some?
    ensures PathKeys(r) == PathKeys(official) + (set p | p in Keys(PathsOf(comprehensive).value) :: NormalizePath(p))
    ensures PathsOf(official).Some? ==>
      && PathsOf(r).Some? && |PathsOf(official).value| <= |PathsOf(r).value|
      && PathsOf(r).value[..|PathsOf(official).value|] == PathsOf(official).value
    ensures forall k :: k in PathKeys(r) && k !in PathKeys(official) ==>
      Lookup(PathsOf(r).value, k) == StagedValue(PathsOf(comprehensive).value, PathKeys(official), k)
  {
    MergeStages(official, comprehensive, curated);
    MergeLastStage(official, comprehensive, curated);
    var inserted := InsertPaths(official, Staged(official, comprehensive).value).value;
    assert PathsOf(r) == PathsOf(inserted) by {
      assert Lookup(r.entries, "paths") == Lookup(inserted.entries, "paths");
    }
    InsertStaged(official, comprehensive, inserted);
  }

  /** The path level of the insertion stage. */
  lemma InsertStaged(official: Tree, comprehensive: Tree, inserted: Tree)
    requires official.Mapping? && Staged(official, comprehensive).Ok?
    requires InsertPaths(official, Staged(official, comprehensive).value) == Ok(inserted)
    ensures PathsOf(comprehensive).Some?
    ensures PathKeys(inserted) == PathKeys(official) + (set p | p in Keys(PathsOf(comprehensive).value) :: NormalizePath(p))
    ensures PathsOf(official).Some? ==>
      && PathsOf(inserted).Some? && |PathsOf(official).value| <= |PathsOf(inserted).value|
      && PathsOf(inserted).value[..|PathsOf(official).value|] == PathsOf(official).value
    ensures forall k :: k in PathKeys(inserted) && k !in PathKeys(official) ==>
      Lookup(PathsOf(inserted).value, k) == StagedValue(PathsOf(comprehensive).value, PathKeys(official), k)
  {
    var missing := Staged(official, comprehensive).value;
    NormalizedKeys(PathsOf(comprehensive).value, PathKeys(official));
    if missing == [] {
      EmptyKeySet(missing);
    } else {
      InsertAppends(official, missing);
      LookupAppended(PathsOf(official).value, missing);
    }
  }

  /** The normalized keys are the present ones they hit plus the new ones. */
  lemma NormalizedKeys(cs: Entries, present: set<string>)
    ensures present + (set p | p in Keys(cs) :: NormalizePath(p)) == present + NewKeys(cs, present)
  {
  }

  /** Merge on the tag level: on a readable tag list, the old tags stay as
      a prefix and exactly the curated tags whose names were absent follow,
      in curated order. */
  lemma MergeTags(official: Tree, comprehensive: Tree, curated: seq<(string, string)>)
    requires MergeWith(official, comprehensive, curated).Ok?
    requires TagsReadable(official)
    ensures TagList(MergeWith(official, comprehensive, curated).value)
      == TagList(official) + TagTrees(AbsentTags(curated, ExistingNames(official)))
  {
    MergeStages(official, comprehensive, curated);
    MergeLastStage(official, comprehensive, curated);
    var inserted := InsertPaths(official, Staged(official, comprehensive).value).value;
    InsertKeepsTags(official, Staged(official, comprehensive).value);
    AddTagsAppendsAbsent(inserted, curated);
  }

  /** A document whose path keys are all normalized stages nothing from
      itself. */
  lemma StagedSelf(doc: Tree)
    requires PathsOf(doc).Some?
    requires forall p :: p in Keys(PathsOf(doc).value) ==> NormalizePath(p) == p
    ensures Staged(doc, doc) == Ok([])
  {
    var ps := PathsOf(doc).value;
    assert GetPathsFromSchema(doc) == Ok(KeySet(ps));
    assert Index(doc, "paths") == Ok(Mapping(ps));
    assert NewKeys(ps, KeySet(ps)) == {};
    assert StageableFrom(ps, KeySet(ps));
    var missing := CollectMissing(ps, KeySet(ps), []).value;
    EmptyKeySet(missing);
  }

  /** Merging a document whose path keys are all normalized into itself
      succeeds when its tags are readable, and leaves its paths as they
      are. */
  lemma MergeSelf(doc: Tree, curated: seq<(string, string)>)
    requires PathsOf(doc).Some? && TagsReadable(doc)
    requires forall p :: p in Keys(PathsOf(doc).value) ==> NormalizePath(p) == p
    ensures MergeWith(doc, doc, curated).Ok?
    ensures PathsOf(MergeWith(doc, doc, curated).value) == PathsOf(doc)
  {
    StagedSelf(doc);
    assert MergeWith(doc, doc, curated) == AddTags(doc, curated);
    AddTagsAppendsAbsent(doc, curated);
    assert Lookup(AddTags(doc, curated).value.entries, "paths") == Lookup(doc.entries, "paths");
  }
}

=== FILE: null_enums.dfy ===
/**
  `fix_null_enums` of the fix script: an `enum` list that contains `None`
  loses its `None` members and the mapping becomes `nullable: true`
  unless it already says something about `nullable`. The script repairs a
  mapping first and then descends into its values; the model descends
  first and repairs afterwards, and `SourceOrder` proves the two orders
  give the same tree.
 */
module NullEnums {
  import opened Trees

  // ---------------------------------------------------------------------
  // One mapping
  // ---------------------------------------------------------------------

  /** `[v for v in vs if v is not None]`. */
  function RemoveNulls(vs: seq<Tree>): (r: seq<Tree>)
    ensures Null !in r
    ensures Subsequence(r, vs)
    ensures forall x :: x != Null ==> multiset(r)[x] == multiset(vs)[x]
  {
    if vs == [] then []
    else if vs[0] == Null then
      assert vs == [vs[0]] + vs[1..];
      RemoveNulls(vs[1..])
    else
      assert vs == [vs[0]] + vs[1..];
      assert ([vs[0]] + RemoveNulls(vs[1..]))[1..] == RemoveNulls(vs[1..]);
      [vs[0]] + RemoveNulls(vs[1..])
  }

  /** The mapping's `enum` is a list that contains `None`. */
  predicate HasNullEnum(es: Entries) {
    Lookup(es, "enum").Some? && Lookup(es, "enum").value.List? && Null in Lookup(es, "enum").value.items
  }

  /** The repair of one mapping, before the script descends into it. */
  function RepairNode(es: Entries): (r: Entries)
    ensures !HasNullEnum(es) ==> r == es
    ensures HasNullEnum(es) ==>
      Lookup(r, "enum") == Some(List(RemoveNulls(Lookup(es, "enum").value.items)))
    ensures HasNullEnum(es) && HasKey(es, "nullable") ==> Lookup(r, "nullable") == Lookup(es, "nullable")
    ensures HasNullEnum(es) && !HasKey(es, "nullable") ==> Lookup(r, "nullable") == Some(Bool(true))
    ensures forall k :: k != "enum" && k != "nullable" ==> Lookup(r, k) == Lookup(es, k)
    ensures HasKey(es, "nullable") || !HasNullEnum(es) ==> Keys(r) == Keys(es)
    ensures !HasKey(es, "nullable") && HasNullEnum(es) ==> Keys(r) == Keys(es) + ["nullable"]
    ensures !HasNullEnum(r)
  {
    if HasNullEnum(es) then
      var vs := Lookup(es, "enum").value.items;
      var es1 := Put(es, "enum", List(RemoveNulls(vs)));
      PutLookup(es, "enum", List(RemoveNulls(vs)));
      if HasKey(es, "nullable") then es1
      else
        PutLookup(es1, "nullable", Bool(true));
        Put(es1, "nullable", Bool(true))
    else es
  }

  /** Repairing a repaired mapping changes nothing. */
  lemma RepairNodeIdempotent(es: Entries)
    ensures RepairNode(RepairNode(es)) == RepairNode(es)
  {
  }

  // ---------------------------------------------------------------------
  // The whole tree
  // ---------------------------------------------------------------------

  /** The pass over a whole tree, children first. */
  function FixNullEnums(t: Tree): (r: Tree)
    ensures NoNullEnums(r)
  {
    match t
    case Mapping(es) =>
      var fs := seq(|es|, i requires 0 <= i < |es| => (es[i].0, FixNullEnums(es[i].1)));
      RepairKeepsClean(fs);
      Mapping(RepairNode(fs))
    case List(xs) => List(seq(|xs|, i requires 0 <= i < |xs| => FixNullEnums(xs[i])))
    case _ => t
  }

  /** The pass applied to every value of a mapping. */
  function FixValues(es: Entries): (r: Entries)
    ensures |r| == |es|
    ensures forall i :: 0 <= i < |es| ==> r[i] == (es[i].0, FixNullEnums(es[i].1))
  {
    seq(|es|, i requires 0 <= i < |es| => (es[i].0, FixNullEnums(es[i].1)))
  }

  /** The pass applied to every item of a list. */
  function FixItems(xs: seq<Tree>): (r: seq<Tree>)
    ensures |r| == |xs|
    ensures forall i :: 0 <= i < |xs| ==> r[i] == FixNullEnums(xs[i])
  {
    seq(|xs|, i requires 0 <= i < |xs| => FixNullEnums(xs[i]))
  }

  /** The pass keeps the kind of every node, and only `None` becomes `None`. */
  lemma FixKind(t: Tree)
    ensures FixNullEnums(t).Mapping? == t.Mapping?
    ensures FixNullEnums(t).List? == t.List?
    ensures FixNullEnums(t) == Null <==> t == Null
    ensures t.List? ==> FixNullEnums(t) == List(FixItems(t.items))
    ensures !t.Mapping? && !t.List? ==> FixNullEnums(t) == t
  {
  }

  lemma FixValuesCons(e: (string, Tree), es: Entries)
    ensures FixValues([e] + es) == [(e.0, FixNullEnums(e.1))] + FixValues(es)
  {
    var l, r := FixValues([e] + es), [(e.0, FixNullEnums(e.1))] + FixValues(es);
    forall i | 0 <= i < |l|
      ensures l[i] == r[i]
    {
      if i > 0 {
        assert ([e] + es)[i] == es[i - 1];
      }
    }
  }

  lemma FixItemsCons(x: Tree, xs: seq<Tree>)
    ensures FixItems([x] + xs) == [FixNullEnums(x)] + FixItems(xs)
  {
    var l, r := FixItems([x] + xs), [FixNullEnums(x)] + FixItems(xs);
    forall i | 0 <= i < |l|
      ensures l[i] == r[i]
    {
      if i > 0 {
        assert ([x] + xs)[i] == xs[i - 1];
      }
    }
  }

  lemma {:induction false} FixValuesKeys(es: Entries)
    ensures Keys(FixValues(es)) == Keys(es)
    ensures forall k :: (Lookup(FixValues(es), k) ==
      if HasKey(es, k) then Some(FixNullEnums(Lookup(es, k).value)) else None)
  {
    if es != [] {
      var e, tail := es[0], es[1..];
      assert es == [e] + tail;
      FixValuesKeys(tail);
      FixValuesCons(e, tail);
      var f := (e.0, FixNullEnums(e.1));
      assert Keys([f] + FixValues(tail)) == [e.0] + Keys(FixValues(tail));
      assert Keys(es) == [e.0] + Keys(tail);
      LookupCons(f, FixValues(tail));
      LookupCons(e, tail);
    }
  }

  /** Fixing the values commutes with a dictionary assignment. */
  lemma {:induction false} FixValuesPut(es: Entries, k: string, v: Tree)
    ensures FixValues(Put(es, k, v)) == Put(FixValues(es), k, FixNullEnums(v))
  {
    if es == [] {
      FixValuesCons((k, v), []);
    } else {
      var e, tail := es[0], es[1..];
      assert es == [e] + tail;
      FixValuesCons(e, tail);
      var f := (e.0, FixNullEnums(e.1));
      if e.0 == k {
        assert Put(es, k, v) == [(k, v)] + tail;
        FixValuesCons((k, v), tail);
        assert Put([f] + FixValues(tail), k, FixNullEnums(v)) == [(k, FixNullEnums(v))] + FixValues(tail);
      } else {
        assert Put(es, k, v) == [e] + Put(tail, k, v);
        FixValuesCons(e, Put(tail, k, v));
        FixValuesPut(tail, k, v);
        assert ([f] + FixValues(tail))[1..] == FixValues(tail);
      }
    }
  }

  /** Dropping `None` commutes with fixing the items. */
  lemma {:induction false} FixItemsRemoveNulls(xs: seq<Tree>)
    ensures FixItems(RemoveNulls(xs)) == RemoveNulls(FixItems(xs))
  {
    if xs != [] {
      var x, tail := xs[0], xs[1..];
      assert xs == [x] + tail;
      FixKind(x);
      FixItemsRemoveNulls(tail);
      FixItemsCons(x, tail);
      assert ([FixNullEnums(x)] + FixItems(tail))[1..] == FixItems(tail);
      if x != Null {
        FixItemsCons(x, RemoveNulls(tail));
      }
    }
  }

  /** Repairing a mapping commutes with fixing its values. */
  lemma RepairCommutes(es: Entries)
    ensures RepairNode(FixValues(es)) == FixValues(RepairNode(es))
  {
    FixValuesKeys(es);
    if HasNullEnum(es) {
      var e := Lookup(es, "enum").value;
      FixKind(e);
      forall x | x in e.items
        ensures FixNullEnums(x) == Null <==> x == Null
      {
        FixKind(x);
      }
      assert Null in FixItems(e.items) by {
        var i :| 0 <= i < |e.items| && e.items[i] == Null;
        assert FixItems(e.items)[i] == Null;
      }
      assert HasNullEnum(FixValues(es));
      FixItemsRemoveNulls(e.items);
      var es1 := Put(es, "enum", List(RemoveNulls(e.items)));
      FixValuesPut(es, "enum", List(RemoveNulls(e.items)));
      if !HasKey(es, "nullable") {
        FixValuesPut(es1, "nullable", Bool(true));
      }
    } else if HasKey(es, "enum") && Lookup(es, "enum").value.List? {
      var e := Lookup(es, "enum").value;
      FixKind(e);
      forall x | x in e.items
        ensures FixNullEnums(x) != Null
      {
        FixKind(x);
      }
    }
  }

  /** The source's order, repair first and then descend, gives the same
      tree as the model's. */
  lemma SourceOrder(es: Entries)
    ensures FixNullEnums(Mapping(es)) == Mapping(FixValues(RepairNode(es)))
  {
    RepairCommutes(es);
    assert FixNullEnums(Mapping(es)) == Mapping(RepairNode(FixValues(es)));
  }

  // ---------------------------------------------------------------------
  // After the pass no enum holds `None`
  // ---------------------------------------------------------------------

  /** No mapping anywhere in the tree has an `enum` list containing `None`. */
  predicate NoNullEnums(t: Tree) {
    match t
    case Mapping(es) => !HasNullEnum(es) && forall i :: 0 <= i < |es| ==> NoNullEnums(es[i].1)
    case List(xs) => forall i :: 0 <= i < |xs| ==> NoNullEnums(xs[i])
    case _ => true
  }

  /** Every value of the mapping is clean. */
  predicate CleanValues(es: Entries) {
    forall i :: 0 <= i < |es| ==> NoNullEnums(es[i].1)
  }

  lemma PutClean(es: Entries, k: string, v: Tree)
    requires CleanValues(es) && NoNullEnums(v)
    ensures CleanValues(Put(es, k, v))
  {
    var r := Put(es, k, v);
    PutEntries(es, k, v);
    forall i | 0 <= i < |r|
      ensures NoNullEnums(r[i].1)
    {
      assert r[i] in r;
    }
  }

  lemma RemoveNullsClean(vs: seq<Tree>)
    requires NoNullEnums(List(vs))
    ensures NoNullEnums(List(RemoveNulls(vs)))
  {
    var r := RemoveNulls(vs);
    forall i | 0 <= i < |r|
      ensures NoNullEnums(r[i])
    {
      assert multiset(r)[r[i]] > 0;
      assert r[i] in vs;
    }
  }

  /** Repairing a mapping whose values are clean leaves clean values. */
  lemma RepairKeepsClean(es: Entries)
    requires CleanValues(es)
    ensures CleanValues(RepairNode(es))
  {
    if HasNullEnum(es) {
      var vs := Lookup(es, "enum").value.items;
      var j :| 0 <= j < |es| && es[j] == ("enum", List(vs));
      assert NoNullEnums(es[j].1);
      RemoveNullsClean(vs);
      PutClean(es, "enum", List(RemoveNulls(vs)));
      if !HasKey(es, "nullable") {
        PutClean(Put(es, "enum", List(RemoveNulls(vs))), "nullable", Bool(true));
      }
    }
  }

  /** A tree without `None` in its enums is left exactly as it is. */
  lemma {:induction false} FixKeepsClean(t: Tree)
    requires NoNullEnums(t)
    ensures FixNullEnums(t) == t
  {
    match t
    case Mapping(es) =>
      forall i | 0 <= i < |es|
        ensures FixValues(es)[i] == es[i]
      {
        FixKeepsClean(es[i].1);
      }
      assert FixValues(es) == es;
    case List(xs) =>
      forall i | 0 <= i < |xs|
        ensures FixItems(xs)[i] == xs[i]
      {
        FixKeepsClean(xs[i]);
      }
      assert FixItems(xs) == xs;
    case _ =>
  }

  /** The pass changes a tree exactly when some enum holds `None`. */
  lemma FixFixedIff(t: Tree)
    ensures FixNullEnums(t) == t <==> NoNullEnums(t)
  {
    if NoNullEnums(t) {
      FixKeepsClean(t);
    }
  }

  /** Applying the pass twice is applying it once. */
  lemma FixIdempotent(t: Tree)
    ensures FixNullEnums(FixNullEnums(t)) == FixNullEnums(t)
  {
    FixKeepsClean(FixNullEnums(t));
  }

  /** At the top of a mapping the pass removes no key and adds at most
      `nullable`; every other key holds its own value, fixed. */
  lemma FixTopKeys(es: Entries)
    ensures FixNullEnums(Mapping(es)).Mapping?
    ensures var ks := Keys(FixNullEnums(Mapping(es)).entries);
      ks == Keys(es) || ks == Keys(es) + ["nullable"]
    ensures forall k :: k != "enum" && k != "nullable" ==>
      Lookup(FixNullEnums(Mapping(es)).entries, k) ==
        (if HasKey(es, k) then Some(FixNullEnums(Lookup(es, k).value)) else None)
  {
    FixValuesKeys(es);
    assert FixNullEnums(Mapping(es)) == Mapping(RepairNode(FixValues(es)));
  }

  /** Fixing the values of a mapping keeps whether its `enum` holds `None`. */
  lemma FixValuesNullEnum(es: Entries)
    ensures HasNullEnum(FixValues(es)) <==> HasNullEnum(es)
  {
    FixValuesKeys(es);
    if HasKey(es, "enum") && Lookup(es, "enum").value.List? {
      var e := Lookup(es, "enum").value;
      FixKind(e);
      forall x | x in e.items
        ensures FixNullEnums(x) == Null <==> x == Null
      {
        FixKind(x);
      }
      if Null in e.items {
        var i :| 0 <= i < |e.items| && e.items[i] == Null;
        assert FixItems(e.items)[i] == Null;
      }
    } else if HasKey(es, "enum") {
      FixKind(Lookup(es, "enum").value);
    }
  }

  /** At the top of a mapping whose `enum` holds `None`: the enum keeps its
      other items in order, and `nullable` is `true` unless the mapping had
      its own `nullable`, which is kept (fixed like any value). */
  lemma FixTopEnum(es: Entries)
    requires HasNullEnum(es)
    ensures var r := FixNullEnums(Mapping(es)).entries;
      && Lookup(r, "enum") == Some(List(RemoveNulls(FixItems(Lookup(es, "enum").value.items))))
      && Lookup(r, "nullable") ==
        (if HasKey(es, "nullable") then Some(FixNullEnums(Lookup(es, "nullable").value)) else Some(Bool(true)))
  {
    FixValuesKeys(es);
    FixValuesNullEnum(es);
    FixKind(Lookup(es, "enum").value);
    assert FixNullEnums(Mapping(es)) == Mapping(RepairNode(FixValues(es)));
  }
}

=== FILE: param_names.dfy ===
/**
  `convert_param_names_in_path` of the merge script: inside every list
  stored under a `parameters` key, a parameter mapping whose `name` is a
  short name of the table gets the official name.
 */
module ParamNames {
  import opened Trees

  /** The parameter rename table. Five names map to themselves. */
  const ParamNameTable: map<string, string> := map[
    "oid" := "orgId",
    "wid" := "workspaceId",
    "docId" := "docId",
    "tableId" := "tableId",
    "attId" := "attachmentId",
    "uid" := "userId",
    "said" := "serviceAccountId",
    "vsId" := "formId",
    "colId" := "colId",
    "webhookId" := "webhookId",
    "proposalId" := "proposalId"
  ]

  /** The name after renaming: its table entry, or itself. */
  function RenameName(n: string): string {
    if n in ParamNameTable then ParamNameTable[n] else n
  }

  /** One element of a `parameters` list: a mapping whose `name` is a string
      of the table becomes a copy carrying the new name. */
  function RenameParam(p: Tree): (r: Tree)
    ensures !p.Mapping? ==> r == p
    ensures p.Mapping? ==> r.Mapping? && Keys(r.entries) == Keys(p.entries)
    ensures p.Mapping? ==> forall k :: k != "name" ==> Lookup(r.entries, k) == Lookup(p.entries, k)
    ensures (p.Mapping? && Lookup(p.entries, "name").Some? && Lookup(p.entries, "name").value.Str?) ==>
      Lookup(r.entries, "name") == Some(Str(RenameName(Lookup(p.entries, "name").value.text)))
    ensures (p.Mapping? && !(Lookup(p.entries, "name").Some? && Lookup(p.entries, "name").value.Str?)) ==> r == p
  {
    match p
    case Mapping(es) =>
      (match Lookup(es, "name")
       case Some(Str(n)) =>
         if n in ParamNameTable then
           PutLookup(es, "name", Str(ParamNameTable[n]));
           Mapping(Put(es, "name", Str(ParamNameTable[n])))
         else p
       case _ => p)
    case _ => p
  }

  /** The whole pass, recursing into every mapping value and list item. The
      elements of a `parameters` list are renamed after their own contents
      are converted; `ConvertAfterRename` shows this is the source's order. */
  function ConvertParamNames(t: Tree): (r: Tree)
    ensures r.Mapping? == t.Mapping? && r.List? == t.List?
    ensures t.Mapping? ==> Keys(r.entries) == Keys(t.entries)
    ensures t.List? ==> |r.items| == |t.items|
    ensures !t.Mapping? && !t.List? ==> r == t
    decreases t, 1
  {
    match t
    case Mapping(es) => Mapping(ConvertEntries(es))
    case List(xs) => List(seq(|xs|, i requires 0 <= i < |xs| => ConvertParamNames(xs[i])))
    case _ => t
  }

  function ConvertEntries(es: Entries): (r: Entries)
    ensures |r| == |es|
    ensures forall i :: 0 <= i < |es| ==> r[i] == (es[i].0, ConvertValue(es[i].0, es[i].1))
    decreases Mapping(es), 0
  {
    seq(|es|, i requires 0 <= i < |es| => (es[i].0, ConvertValue(es[i].0, es[i].1)))
  }

  /** The value stored under key `k`. */
  function ConvertValue(k: string, v: Tree): Tree
    decreases v, 2
  {
    if k == "parameters" && v.List? then
      List(seq(|v.items|, i requires 0 <= i < |v.items| => RenameParam(ConvertParamNames(v.items[i]))))
    else ConvertParamNames(v)
  }

  // ---------------------------------------------------------------------
  // Shape: only parameter names change, and only as the table says.
  // ---------------------------------------------------------------------

  /** `u` is `t` with, at most, some parameter names renamed by the table. */
  predicate SameOutsideNames(t: Tree, u: Tree)
    decreases t, 1
  {
    match t
    case Mapping(es) =>
      && u.Mapping? && Keys(u.entries) == Keys(es)
      && forall i :: 0 <= i < |es| ==> SameValueOutsideNames(es[i].0, es[i].1, u.entries[i].1)
    case List(xs) =>
      && u.List? && |u.items| == |xs|
      && forall i :: 0 <= i < |xs| ==> SameOutsideNames(xs[i], u.items[i])
    case _ => u == t
  }

  predicate SameValueOutsideNames(k: string, v: Tree, w: Tree)
    decreases v, 2
  {
    if k == "parameters" && v.List? then
      && w.List? && |w.items| == |v.items|
      && forall i :: 0 <= i < |v.items| ==> ParamRenamedOnly(v.items[i], w.items[i])
    else SameOutsideNames(v, w)
  }

  /** A parameter whose `name`, if anything, moved along the table. */
  predicate ParamRenamedOnly(p: Tree, q: Tree)
    decreases p, 4
  {
    if p.Mapping? then
      && q.Mapping? && Keys(q.entries) == Keys(p.entries)
      && forall i :: 0 <= i < |p.entries| ==>
        EntryRenamedOnly(p.entries[i].0, p.entries[i].1, q.entries[i].1)
    else SameOutsideNames(p, q)
  }

  /** One entry of a parameter: unchanged outside names, or the `name`
      string itself moved along the table. */
  predicate EntryRenamedOnly(k: string, v: Tree, w: Tree)
    decreases v, 3
  {
    || SameValueOutsideNames(k, v, w)
    || (k == "name" && v.Str? && v.text in ParamNameTable && w == Str(ParamNameTable[v.text]))
  }

  /** `Put` on a present key overwrites exactly the entry `Lookup` reads. */
  lemma {:induction false} PutAt(es: Entries, k: string, v: Tree)
    requires HasKey(es, k)
    ensures |Put(es, k, v)| == |es|
    ensures forall i :: 0 <= i < |es| ==>
      Put(es, k, v)[i] == es[i] || (es[i] == (k, Lookup(es, k).value) && Put(es, k, v)[i] == (k, v))
  {
    if es[0].0 != k {
      PutAt(es[1..], k, v);
    }
  }

  /** The pass changes nothing but parameter names, and those only along
      the table. */
  lemma {:induction false} ConvertShape(t: Tree)
    ensures SameOutsideNames(t, ConvertParamNames(t))
    decreases t, 1
  {
    match t
    case Mapping(es) =>
      forall i | 0 <= i < |es|
        ensures SameValueOutsideNames(es[i].0, es[i].1, ConvertValue(es[i].0, es[i].1))
      {
        ValueShape(es[i].0, es[i].1);
      }
    case List(xs) =>
      forall i | 0 <= i < |xs|
        ensures SameOutsideNames(xs[i], ConvertParamNames(xs[i]))
      {
        ConvertShape(xs[i]);
      }
    case _ =>
  }

  lemma {:induction false} ValueShape(k: string, v: Tree)
    ensures SameValueOutsideNames(k, v, ConvertValue(k, v))
    decreases v, 2
  {
    if k == "parameters" && v.List? {
      forall i | 0 <= i < |v.items|
        ensures ParamRenamedOnly(v.items[i], RenameParam(ConvertParamNames(v.items[i])))
      {
        ParamShape(v.items[i]);
      }
    } else {
      ConvertShape(v);
    }
  }

  lemma {:induction false} ParamShape(p: Tree)
    ensures ParamRenamedOnly(p, RenameParam(ConvertParamNames(p)))
    decreases p, 4
  {
    match p
    case Mapping(es) =>
      EntriesShape(es);
      match Lookup(ConvertEntries(es), "name") {
        case Some(Str(n)) =>
          if n in ParamNameTable {
            var ces := ConvertEntries(es);
            assert Keys(ces) == Keys(es);
            RenamedShape(es, ces, n);
          }
        case _ =>
      }
    case _ =>
      ConvertShape(p);
  }

  lemma {:induction false} EntriesShape(es: Entries)
    ensures forall i :: 0 <= i < |es| ==> SameValueOutsideNames(es[i].0, es[i].1, ConvertEntries(es)[i].1)
    decreases Mapping(es), 2
  {
    forall i | 0 <= i < |es|
      ensures SameValueOutsideNames(es[i].0, es[i].1, ConvertEntries(es)[i].1)
    {
      ValueShape(es[i].0, es[i].1);
    }
  }

  /** Renaming the converted `name` entry moves it along the table. */
  lemma RenamedShape(es: Entries, ces: Entries, n: string)
    requires |ces| == |es| && Keys(ces) == Keys(es)
    requires forall i :: 0 <= i < |es| ==> SameValueOutsideNames(es[i].0, es[i].1, ces[i].1)
    requires forall i :: 0 <= i < |es| && es[i].0 == "name" ==> ces[i].1 == ConvertParamNames(es[i].1)
    requires Lookup(ces, "name") == Some(Str(n)) && n in ParamNameTable
    ensures ParamRenamedOnly(Mapping(es), Mapping(Put(ces, "name", Str(ParamNameTable[n]))))
  {
    PutAt(ces, "name", Str(ParamNameTable[n]));
    var r := Put(ces, "name", Str(ParamNameTable[n]));
    forall i | 0 <= i < |es|
      ensures EntryRenamedOnly(es[i].0, es[i].1, r[i].1)
    {
      if r[i] != ces[i] {
        assert Keys(ces)[i] == "name";
        RenamedEntry(es[i].1, n);
      }
    }
  }

  lemma RenamedEntry(v: Tree, n: string)
    requires ConvertParamNames(v) == Str(n) && n in ParamNameTable
    ensures EntryRenamedOnly("name", v, Str(ParamNameTable[n]))
  {
  }

  // ---------------------------------------------------------------------
  // Source order: the script renames a parameter first and converts the
  // renamed copy; the structural definition converts first.
  // ---------------------------------------------------------------------

  lemma ConvertEntriesCons(e: (string, Tree), es: Entries)
    ensures ConvertEntries([e] + es) == [(e.0, ConvertValue(e.0, e.1))] + ConvertEntries(es)
  {
    var l, r := ConvertEntries([e] + es), [(e.0, ConvertValue(e.0, e.1))] + ConvertEntries(es);
    forall i | 0 <= i < |l|
      ensures l[i] == r[i]
    {
      if i > 0 {
        assert ([e] + es)[i] == es[i - 1];
      }
    }
  }

  /** Converting the entries commutes with assigning a value conversion
      leaves alone. */
  lemma {:induction false} ConvertEntriesPut(es: Entries, k: string, v: Tree)
    requires ConvertValue(k, v) == v
    ensures ConvertEntries(Put(es, k, v)) == Put(ConvertEntries(es), k, v)
  {
    if es == [] {
      ConvertEntriesCons((k, v), []);
    } else {
      var e, tail := es[0], es[1..];
      assert es == [e] + tail;
      ConvertEntriesCons(e, tail);
      var c := (e.0, ConvertValue(e.0, e.1));
      if e.0 == k {
        assert Put(es, k, v) == [(k, v)] + tail;
        ConvertEntriesCons((k, v), tail);
        assert Put([c] + ConvertEntries(tail), k, v) == [(k, v)] + ConvertEntries(tail);
      } else {
        assert Put(es, k, v) == [e] + Put(tail, k, v);
        ConvertEntriesCons(e, Put(tail, k, v));
        ConvertEntriesPut(tail, k, v);
        assert ([c] + ConvertEntries(tail))[1..] == ConvertEntries(tail);
      }
    }
  }

  /** A converted mapping holds, under each key, the converted value. */
  lemma {:induction false} LookupConvert(es: Entries, k: string)
    ensures Lookup(ConvertEntries(es), k) ==
      match Lookup(es, k)
      case Some(v) => Some(ConvertValue(k, v))
      case None => None
  {
    if es != [] && es[0].0 != k {
      LookupConvert(es[1..], k);
      assert ConvertEntries(es)[1..] == ConvertEntries(es[1..]);
    }
  }

  /** Renaming then converting, as the script does, is converting then
      renaming, as `ConvertValue` does. */
  lemma ConvertAfterRename(p: Tree)
    ensures ConvertParamNames(RenameParam(p)) == RenameParam(ConvertParamNames(p))
  {
    if p.Mapping? {
      var es := p.entries;
      LookupConvert(es, "name");
      match Lookup(es, "name") {
        case Some(v) =>
          if v.Str? && v.text in ParamNameTable {
            ConvertEntriesPut(es, "name", Str(ParamNameTable[v.text]));
          }
        case None =>
      }
    }
  }

  // ---------------------------------------------------------------------
  // Settled documents: the pass is the identity exactly on them.
  // ---------------------------------------------------------------------

  /** The table sends every name to a name it keeps. */
  lemma RenameNameIdempotent(n: string)
    ensures RenameName(RenameName(n)) == RenameName(n)
  {
  }

  /** A parameter whose `name`, if a string, is one the table keeps. */
  predicate NameSettled(p: Tree) {
    p.Mapping? && Lookup(p.entries, "name").Some? && Lookup(p.entries, "name").value.Str? ==>
      RenameName(Lookup(p.entries, "name").value.text) == Lookup(p.entries, "name").value.text
  }

  /** No parameter anywhere in the tree still carries a short name. */
  predicate Settled(t: Tree)
    decreases t, 1
  {
    match t
    case Mapping(es) => forall i :: 0 <= i < |es| ==> SettledValue(es[i].0, es[i].1)
    case List(xs) => forall i :: 0 <= i < |xs| ==> Settled(xs[i])
    case _ => true
  }

  predicate SettledValue(k: string, v: Tree)
    decreases v, 2
  {
    if k == "parameters" && v.List? then
      forall i :: 0 <= i < |v.items| ==> SettledParam(v.items[i])
    else Settled(v)
  }

  predicate SettledParam(p: Tree)
    decreases p, 3
  {
    Settled(p) && NameSettled(p)
  }

  /** On a settled tree the pass changes nothing. */
  lemma {:induction false} SettledFixed(t: Tree)
    requires Settled(t)
    ensures ConvertParamNames(t) == t
    decreases t, 1
  {
    match t
    case Mapping(es) =>
      forall i | 0 <= i < |es|
        ensures ConvertEntries(es)[i] == es[i]
      {
        SettledValueFixed(es[i].0, es[i].1);
      }
      assert ConvertEntries(es) == es;
    case List(xs) =>
      forall i | 0 <= i < |xs|
        ensures ConvertParamNames(xs[i]) == xs[i]
      {
        SettledFixed(xs[i]);
      }
      assert ConvertParamNames(t).items == xs;
    case _ =>
  }

  lemma {:induction false} SettledValueFixed(k: string, v: Tree)
    requires SettledValue(k, v)
    ensures ConvertValue(k, v) == v
    decreases v, 2
  {
    if k == "parameters" && v.List? {
      forall i | 0 <= i < |v.items|
        ensures RenameParam(ConvertParamNames(v.items[i])) == v.items[i]
      {
        SettledParamFixed(v.items[i]);
      }
      assert ConvertValue(k, v).items == v.items;
    } else {
      SettledFixed(v);
    }
  }

  lemma {:induction false} SettledParamFixed(p: Tree)
    requires SettledParam(p)
    ensures RenameParam(ConvertParamNames(p)) == p
    decreases p, 3
  {
    SettledFixed(p);
    if p.Mapping? {
      match Lookup(p.entries, "name") {
        case Some(v) =>
          if v.Str? && v.text in ParamNameTable {
            PutSame(p.entries, "name", v);
          }
        case None =>
      }
    }
  }

  /** After the pass no parameter carries a short name. */
  lemma {:induction false} ConvertSettles(t: Tree)
    ensures Settled(ConvertParamNames(t))
    decreases t, 1
  {
    match t
    case Mapping(es) =>
      forall i | 0 <= i < |es|
        ensures SettledValue(es[i].0, ConvertValue(es[i].0, es[i].1))
      {
        ValueSettles(es[i].0, es[i].1);
      }
    case List(xs) =>
      forall i | 0 <= i < |xs|
        ensures Settled(ConvertParamNames(xs[i]))
      {
        ConvertSettles(xs[i]);
      }
    case _ =>
  }

  lemma {:induction false} ValueSettles(k: string, v: Tree)
    ensures SettledValue(k, ConvertValue(k, v))
    decreases v, 2
  {
    if k == "parameters" && v.List? {
      forall i | 0 <= i < |v.items|
        ensures SettledParam(RenameParam(ConvertParamNames(v.items[i])))
      {
        ParamSettles(v.items[i]);
      }
    } else {
      ConvertSettles(v);
    }
  }

  lemma {:induction false} ParamSettles(p: Tree)
    ensures SettledParam(RenameParam(ConvertParamNames(p)))
    decreases p, 3
  {
    ConvertSettles(p);
    if p.Mapping? {
      var ces := ConvertEntries(p.entries);
      match Lookup(ces, "name") {
        case Some(Str(n)) =>
          if n in ParamNameTable {
            RenamedSettles(ces, n);
          }
        case _ =>
      }
    }
  }

  /** Giving a settled parameter the table name of its `name` settles it. */
  lemma RenamedSettles(ces: Entries, n: string)
    requires Settled(Mapping(ces))
    requires Lookup(ces, "name") == Some(Str(n)) && n in ParamNameTable
    ensures SettledParam(Mapping(Put(ces, "name", Str(ParamNameTable[n]))))
  {
    var m := ParamNameTable[n];
    PutAt(ces, "name", Str(m));
    PutLookup(ces, "name", Str(m));
    RenameNameIdempotent(n);
    var r := Put(ces, "name", Str(m));
    forall i | 0 <= i < |r|
      ensures SettledValue(r[i].0, r[i].1)
    {
      if r[i] != ces[i] {
        assert r[i] == ("name", Str(m));
      }
    }
  }

  /** The pass leaves a tree unchanged exactly when no parameter in it
      still carries a short name. */
  lemma ConvertFixedIff(t: Tree)
    ensures ConvertParamNames(t) == t <==> Settled(t)
  {
    ConvertSettles(t);
    if Settled(t) {
      SettledFixed(t);
    }
  }

  /** Converting twice is converting once. */
  lemma ConvertIdempotent(t: Tree)
    ensures ConvertParamNames(ConvertParamNames(t)) == ConvertParamNames(t)
  {
    ConvertSettles(t);
    SettledFixed(ConvertParamNames(t));
  }

  // ---------------------------------------------------------------------
  // The one fault: an unhashable name.
  // ---------------------------------------------------------------------

  /** Python's dictionary test `name in table` raises `TypeError` when the
      name is itself a mapping or a list. */
  predicate HashableName(p: Tree) {
    p.Mapping? && Lookup(p.entries, "name").Some? ==>
      !(Lookup(p.entries, "name").value.Mapping? || Lookup(p.entries, "name").value.List?)
  }

  /** Every parameter the pass inspects has a hashable name. */
  predicate Hashable(t: Tree)
    decreases t, 1
  {
    match t
    case Mapping(es) => forall i :: 0 <= i < |es| ==> HashableValue(es[i].0, es[i].1)
    case List(xs) => forall i :: 0 <= i < |xs| ==> Hashable(xs[i])
    case _ => true
  }

  predicate HashableValue(k: string, v: Tree)
    decreases v, 2
  {
    if k == "parameters" && v.List? then
      forall i :: 0 <= i < |v.items| ==> Hashable(v.items[i]) && HashableName(v.items[i])
    else Hashable(v)
  }

  /** `convert_param_names_in_path` with its fault: it fails exactly when
      some inspected parameter name is unhashable, and otherwise renames
      names along the table and nothing else, leaving none to rename. */
  function ConvertPathObject(t: Tree): (r: Result<Tree>)
    ensures r.Ok? <==> Hashable(t)
    ensures r.Ok? ==> SameOutsideNames(t, r.value) && Settled(r.value)
  {
    if Hashable(t) then
      ConvertShape(t);
      ConvertSettles(t);
      Ok(ConvertParamNames(t))
    else Err(TypeError("unhashable type"))
  }
}

=== FILE: param_refs.dfy ===
/**
  `convert_param_refs` of the merge script: every `$ref` string that
  mentions `parameters/OrgId` and its siblings is rewritten to point at the
  official parameter component names. The test is a substring test and the
  rewrite is `str.replace`, so the names are matched anywhere in the
  reference.
 */
module ParamRefs {
  import opened Strings
  import opened Trees

  /** The component rename table, in the order the loop visits it. */
  const RefNameTable: seq<(string, string)> := [
    ("OrgId", "orgIdPathParam"),
    ("WorkspaceId", "workspaceIdPathParam"),
    ("DocId", "docIdPathParam"),
    ("TableId", "tableIdPathParam"),
    ("AttachmentId", "attachmentIdPathParam"),
    ("UserId", "userIdPathParam")
  ]

  /** The `(parameters/<old>, parameters/<new>)` pairs the loop builds. */
  function RefPatternTable(): (t: seq<(string, string)>)
    ensures |t| == |RefNameTable|
    ensures forall i :: 0 <= i < |t| ==>
      t[i] == ("parameters/" + RefNameTable[i].0, "parameters/" + RefNameTable[i].1)
  {
    seq(|RefNameTable|, i requires 0 <= i < |RefNameTable| =>
      ("parameters/" + RefNameTable[i].0, "parameters/" + RefNameTable[i].1))
  }

  /** Every pattern is non-empty and shorter than its replacement. */
  lemma RefPatternsLengthen()
    ensures forall e :: e in RefPatternTable() ==> 0 < |e.0| < |e.1|
  {
    var t := RefPatternTable();
    forall e | e in t
      ensures 0 < |e.0| < |e.1|
    {
      var i :| 0 <= i < |t| && t[i] == e;
    }
  }

  /** The loop body: replace only when the pattern is a substring. */
  function RewriteWith(v: string, table: seq<(string, string)>): string
    requires forall e :: e in table ==> |e.0| > 0
    decreases |table|
  {
    if table == [] then v
    else
      var v' := if Contains(v, table[0].0) then ReplaceAll(v, table[0].0, table[0].1) else v;
      RewriteWith(v', table[1..])
  }

  /** A `$ref` string after the loop over the table. */
  function RewriteRef(v: string): (r: string)
    ensures |v| <= |r|
    ensures r == v <==> forall e :: e in RefPatternTable() ==> !Contains(v, e.0)
  {
    RefPatternsLengthen();
    GuardRedundant(v, RefPatternTable());
    ReplaceEachUnchangedIff(v, RefPatternTable());
    RewriteWith(v, RefPatternTable())
  }

  /** The substring guard is redundant: replacing an absent pattern is a
      no-op, so the loop is plain successive `str.replace`. */
  lemma {:induction false} GuardRedundant(v: string, table: seq<(string, string)>)
    requires forall e :: e in table ==> |e.0| > 0
    ensures RewriteWith(v, table) == ReplaceEach(v, table)
    decreases |table|
  {
    if table != [] {
      if !Contains(v, table[0].0) {
        ReplaceAllAbsent(v, table[0].0, table[0].1);
      }
      GuardRedundant(ReplaceAll(v, table[0].0, table[0].1), table[1..]);
    }
  }

  /** The whole pass: rebuild every mapping and list, rewriting the string
      values stored under `$ref`. */
  function ConvertParamRefs(t: Tree): (r: Tree)
    ensures RefsOnly(t, r)
    decreases t, 1
  {
    match t
    case Mapping(es) =>
      Mapping(seq(|es|, i requires 0 <= i < |es| => (es[i].0, ConvertRefValue(es[i].0, es[i].1))))
    case List(xs) => List(seq(|xs|, i requires 0 <= i < |xs| => ConvertParamRefs(xs[i])))
    case _ => t
  }

  /** The value stored under key `k`. */
  function ConvertRefValue(k: string, v: Tree): (r: Tree)
    ensures if IsRef(k, v) then r == Str(RewriteRef(v.text)) else RefsOnly(v, r)
    decreases v, 2
  {
    if k == "$ref" && v.Str? then Str(RewriteRef(v.text)) else ConvertParamRefs(v)
  }

  // ---------------------------------------------------------------------
  // Shape: only `$ref` strings change.
  // ---------------------------------------------------------------------

  predicate IsRef(k: string, v: Tree) {
    k == "$ref" && v.Str?
  }

  /** `u` has the keys, order and lengths of `t`, and differs from it only
      in the strings stored under `$ref`, each rewritten by `RewriteRef`. */
  predicate RefsOnly(t: Tree, u: Tree)
    decreases t, 1
  {
    match t
    case Mapping(es) =>
      && u.Mapping? && Keys(u.entries) == Keys(es)
      && forall i :: 0 <= i < |es| ==>
        if IsRef(es[i].0, es[i].1) then u.entries[i].1 == Str(RewriteRef(es[i].1.text))
        else RefsOnly(es[i].1, u.entries[i].1)
    case List(xs) =>
      && u.List? && |u.items| == |xs|
      && forall i :: 0 <= i < |xs| ==> RefsOnly(xs[i], u.items[i])
    case _ => u == t
  }

  // ---------------------------------------------------------------------
  // Fixed points: trees without old-style parameter references.
  // ---------------------------------------------------------------------

  /** No `$ref` string in the tree mentions an old parameter name. */
  predicate NoOldRefs(t: Tree)
    decreases t, 1
  {
    match t
    case Mapping(es) =>
      forall i :: 0 <= i < |es| ==>
        if IsRef(es[i].0, es[i].1) then
          forall e :: e in RefPatternTable() ==> !Contains(es[i].1.text, e.0)
        else NoOldRefs(es[i].1)
    case List(xs) => forall i :: 0 <= i < |xs| ==> NoOldRefs(xs[i])
    case _ => true
  }

  /** The pass leaves a tree unchanged exactly when no `$ref` in it
      mentions an old parameter name. */
  lemma {:induction false} ConvertRefsFixedIff(t: Tree)
    ensures ConvertParamRefs(t) == t <==> NoOldRefs(t)
    decreases t, 1
  {
    match t
    case Mapping(es) =>
      var u := ConvertParamRefs(t);
      forall i | 0 <= i < |es|
        ensures u.entries[i] == es[i] <==>
          if IsRef(es[i].0, es[i].1) then
            forall e :: e in RefPatternTable() ==> !Contains(es[i].1.text, e.0)
          else NoOldRefs(es[i].1)
      {
        assert u.entries[i] == (es[i].0, ConvertRefValue(es[i].0, es[i].1));
        if !IsRef(es[i].0, es[i].1) {
          ConvertRefsFixedIff(es[i].1);
        }
      }
      if forall i :: 0 <= i < |es| ==> u.entries[i] == es[i] {
        assert u.entries == es;
      }
    case List(xs) =>
      var u := ConvertParamRefs(t);
      forall i | 0 <= i < |xs|
        ensures u.items[i] == xs[i] <==> NoOldRefs(xs[i])
      {
        ConvertRefsFixedIff(xs[i]);
      }
      if forall i :: 0 <= i < |xs| ==> u.items[i] == xs[i] {
        assert u.items == xs;
      }
    case _ =>
  }

  // ---------------------------------------------------------------------
  // The organisation parameter reference.
  // ---------------------------------------------------------------------

  /** `#/components/parameters/<name>` is left alone by a pattern
      `parameters/<other>` whose name starts differently. */
  lemma ComponentRefKeeps(name: string, other: string, replacement: string)
    requires |name| > 0 && |other| > 0 && name[0] != other[0] && 'p' !in name
    ensures ReplaceAll("#/com" + ("ponents/" + ("parameters/" + name)), "parameters/" + other, replacement)
      == "#/com" + ("ponents/" + ("parameters/" + name))
  {
    var p := "parameters/" + other;
    var tail := "arameters/" + name;
    assert "parameters/" + name == ['p'] + tail;
    assert !StartsWith(['p'] + tail, p) by {
      if |p| <= |['p'] + tail| {
        assert (['p'] + tail)[..|p|][11] == name[0];
        assert p[11] == other[0];
      }
    }
    ReplaceAllNoHead(tail, p, replacement);
    ReplaceAllCons('p', tail, p, replacement);
    ReplaceAllSegment("ponents/", "parameters/" + name, p, replacement);
    ReplaceAllSkip("#/com", "ponents/" + ("parameters/" + name), p, replacement);
  }

  /** The first pattern that occurs in a component reference is replaced
      there. */
  lemma ComponentRefReplaced(p: string, r: string)
    requires |p| >= 2 && p[0] == 'p' && p[1] != 'o'
    ensures ReplaceAll("#/com" + ("ponents/" + p), p, r) == "#/com" + ("ponents/" + r)
  {
    ReplaceAllMatchHead([], p, r);
    ReplaceAllShort([], p, r);
    assert p + [] == p && r + [] == r;
    ReplaceAllSegment("ponents/", p, p, r);
    ReplaceAllSkip("#/com", "ponents/" + p, p, r);
  }

  /** A table whose first entry turns `s` into `w` and whose other entries
      leave `w` alone turns `s` into `w`. */
  lemma ReplaceEachFirstOnly(s: string, w: string, table: seq<(string, string)>)
    requires forall e :: e in table ==> |e.0| > 0
    requires table != [] && ReplaceAll(s, table[0].0, table[0].1) == w
    requires forall e :: e in table[1..] ==> ReplaceAll(w, e.0, e.1) == w
    ensures ReplaceEach(s, table) == w
  {
    ReplaceEachFixed(w, table[1..]);
  }

  lemma FirstPattern()
    ensures RefPatternTable()[0] == ("parameters/" + "OrgId", "parameters/" + "orgIdPathParam")
  {
  }

  lemma PatternHead(name: string)
    ensures |"parameters/" + name| >= 2
    ensures ("parameters/" + name)[0] == 'p' && ("parameters/" + name)[1] == 'a'
  {
  }

  /** `#/components/parameters/OrgId` becomes
      `#/components/parameters/orgIdPathParam`. */
  lemma OrgIdRefRenamed()
    ensures RewriteRef("#/components/parameters/OrgId") == "#/components/parameters/orgIdPathParam"
  {
    OrgIdLiterals();
    OrgIdSegmentsRenamed();
  }

  /** The two references, split at the segments the proof works on. */
  lemma OrgIdLiterals()
    ensures "#/com" + ("ponents/" + ("parameters/" + "OrgId")) == "#/components/parameters/OrgId"
    ensures "#/com" + ("ponents/" + ("parameters/" + "orgIdPathParam")) == "#/components/parameters/orgIdPathParam"
  {
  }

  lemma OrgIdSegmentsRenamed()
    ensures RewriteRef("#/com" + ("ponents/" + ("parameters/" + "OrgId")))
      == "#/com" + ("ponents/" + ("parameters/" + "orgIdPathParam"))
  {
    var v := "#/com" + ("ponents/" + ("parameters/" + "OrgId"));
    var table := RefPatternTable();
    RefPatternsLengthen();
    GuardRedundant(v, table);
    FirstPattern();
    PatternHead("OrgId");
    ComponentRefReplaced("parameters/" + "OrgId", "parameters/" + "orgIdPathParam");
    OrgIdRefKept(table);
    ReplaceEachFirstOnly(v, "#/com" + ("ponents/" + ("parameters/" + "orgIdPathParam")), table);
  }

  /** The five later patterns leave the renamed organisation reference
      alone. */
  lemma OrgIdRefKept(table: seq<(string, string)>)
    requires table == RefPatternTable()
    ensures forall e :: e in table[1..] ==>
      ReplaceAll("#/com" + ("ponents/" + ("parameters/" + "orgIdPathParam")), e.0, e.1)
        == "#/com" + ("ponents/" + ("parameters/" + "orgIdPathParam"))
  {
    forall e | e in table[1..]
      ensures ReplaceAll("#/com" + ("ponents/" + ("parameters/" + "orgIdPathParam")), e.0, e.1)
        == "#/com" + ("ponents/" + ("parameters/" + "orgIdPathParam"))
    {
      var j :| 1 <= j < |table| && table[j] == e;
      ComponentRefKeeps("orgIdPathParam", RefNameTable[j].0, e.1);
    }
  }
}

=== FILE: path_normalizer.dfy ===
/**
  `normalize_path` of the merge script: rewrites a path key of the
  comprehensive document into the official convention by stripping `/api`
  and renaming the short parameter placeholders.
 */
module PathNormalizer {
  import opened Strings

  /** The placeholder rename table, applied in this order. */
  const PathTokenTable: seq<(string, string)> := [
    ("{oid}", "{orgId}"),
    ("{wid}", "{workspaceId}"),
    ("{attId}", "{attachmentId}"),
    ("{uid}", "{userId}"),
    ("{said}", "{serviceAccountId}"),
    ("{vsId}", "{formId}")
  ]

  /** The short placeholders that the table renames. */
  function ShortTokens(): (ts: set<string>)
  {
    set e | e in PathTokenTable :: e.0
  }

  /** `s` holds none of the short placeholders. */
  predicate ShortTokenFree(s: string) {
    forall t :: t in ShortTokens() ==> !Contains(s, t)
  }

  /** Strips `/api/` then `/api` (both as `str.replace`, so also in the middle
      of the path), then renames the placeholders. */
  function NormalizePath(path: string): (r: string)
    ensures ShortTokenFree(r)
    ensures !Contains(path, "/api") && ShortTokenFree(path) ==> r == path
  {
    var stripped := ReplaceAll(ReplaceAll(path, "/api/", "/"), "/api", "/");
    RenamedAvoidsShortTokens(stripped);
    OfficialPathKept(path);
    ReplaceEach(stripped, PathTokenTable)
  }

  /** After the rename table no short placeholder is left. */
  lemma RenamedAvoidsShortTokens(s: string)
    ensures ShortTokenFree(ReplaceEach(s, PathTokenTable))
  {
    TableIsTokens();
    forall t | t in ShortTokens()
      ensures !Contains(ReplaceEach(s, PathTokenTable), t)
    {
      ReplaceEachAvoids(s, PathTokenTable, t);
    }
  }

  /** A path without `/api` and without any short placeholder passes both
      steps unchanged. */
  lemma OfficialPathKept(path: string)
    ensures !Contains(path, "/api") && ShortTokenFree(path) ==>
      ReplaceEach(ReplaceAll(ReplaceAll(path, "/api/", "/"), "/api", "/"), PathTokenTable) == path
  {
    if !Contains(path, "/api") && ShortTokenFree(path) {
      ContainsPrefix(path, "/api/", 4);
      assert "/api/"[..4] == "/api";
      ReplaceAllAbsent(path, "/api/", "/");
      ReplaceAllAbsent(path, "/api", "/");
      ReplaceEachAbsent(path, PathTokenTable);
    }
  }

  /** Every old and new name in the table is a `{…}` placeholder. */
  lemma TableIsTokens()
    ensures forall e :: e in PathTokenTable ==> BraceToken(e.0) && BraceToken(e.1)
    ensures forall e, f :: e in PathTokenTable && f in PathTokenTable ==> e.0 != f.1
  {
    TableOldTokens();
    TableNewTokens();
    TableNamesDiffer();
  }

  lemma TableOldTokens()
    ensures forall i :: 0 <= i < |PathTokenTable| ==> BraceToken(PathTokenTable[i].0)
  {
    BraceWrap("oid");
    BraceWrap("wid");
    BraceWrap("attId");
    BraceWrap("uid");
    BraceWrap("said");
    BraceWrap("vsId");
  }

  lemma TableNewTokens()
    ensures forall i :: 0 <= i < |PathTokenTable| ==> BraceToken(PathTokenTable[i].1)
  {
    NewTokensFront();
    NewTokensBack();
  }

  lemma NewTokensFront()
    ensures forall i :: 0 <= i < 3 ==> BraceToken(PathTokenTable[i].1)
  {
    BraceWrap("orgId");
    BraceWrap("workspaceId");
    BraceWrap("attachmentId");
  }

  lemma NewTokensBack()
    ensures forall i :: 3 <= i < 6 ==> BraceToken(PathTokenTable[i].1)
  {
    BraceWrap("userId");
    BraceWrap("serviceAccountId");
    BraceWrap("formId");
  }

  /** A name without braces, wrapped in braces, is a placeholder. */
  lemma BraceWrap(name: string)
    requires '{' !in name && '}' !in name
    ensures BraceToken("{" + name + "}")
  {
    var t := "{" + name + "}";
    assert t[1..|t| - 1] == name;
    BraceTokenInterior(t);
  }

  /** No old name is also a new name: they differ in length or at index 1. */
  lemma TableNamesDiffer()
    ensures forall i, j :: 0 <= i < |PathTokenTable| && 0 <= j < |PathTokenTable| ==>
      PathTokenTable[i].0 != PathTokenTable[j].1
  {
    forall i, j | 0 <= i < |PathTokenTable| && 0 <= j < |PathTokenTable|
      ensures PathTokenTable[i].0 != PathTokenTable[j].1
    {
      var o, n := PathTokenTable[i].0, PathTokenTable[j].1;
      if |o| == |n| {
        assert o[1] != n[1];
      }
    }
  }

  /** A plain path segment name: no `/`, no placeholder, and not starting
      with `a`, so that `/api` cannot match at the slash before it. */
  predicate PlainName(n: string) {
    |n| > 0 && '/' !in n && '{' !in n && n[0] != 'a'
  }

  /** The path `<prefix><scope>/<token>/<rest>`. */
  function ScopedPath(prefix: string, scope: string, token: string, rest: string): (p: string)
    ensures |p| == |prefix| + |scope| + |token| + |rest| + 2
  {
    prefix + (scope + ("/" + (token + ("/" + rest))))
  }

  /** Stripping `/api/` from an organisation-scoped path removes only the
      leading prefix. */
  lemma OrgPathFirstStrip(a: string, b: string)
    requires PlainName(a) && PlainName(b)
    ensures ReplaceAll(ScopedPath("/api/", a, "{oid}", b), "/api/", "/") == ScopedPath("/", a, "{oid}", b)
  {
    var p, r := "/api/", "/";
    var oid, tail := "/" + "{oid}", "/" + b;
    var t := a + (oid + tail);
    assert ScopedPath(p, a, "{oid}", b) == p + t;
    ReplaceAllMatchHead(t, p, r);
    ReplaceAllSkip(a, oid + tail, p, r);
    ReplaceAllSegment(oid, tail, p, r);
    assert tail == tail + [];
    ReplaceAllSegment(tail, [], p, r);
    ReplaceAllShort([], p, r);
    assert ScopedPath(r, a, "{oid}", b) == r + t;
  }

  /** The result of the first strip contains no `/api`. */
  lemma OrgPathSecondStrip(a: string, b: string)
    requires PlainName(a) && PlainName(b)
    ensures ReplaceAll(ScopedPath("/", a, "{oid}", b), "/api", "/") == ScopedPath("/", a, "{oid}", b)
  {
    var p, r := "/api", "/";
    var head, oid, tail := "/" + a, "/" + "{oid}", "/" + b;
    assert ScopedPath(r, a, "{oid}", b) == head + (oid + tail);
    ReplaceAllSegment(head, oid + tail, p, r);
    ReplaceAllSegment(oid, tail, p, r);
    assert tail == tail + [];
    ReplaceAllSegment(tail, [], p, r);
    ReplaceAllShort([], p, r);
  }

  /** A placeholder pattern cannot match in `/<scope>/`, so the rewrite of
      a scoped path happens in its `<token>/<rest>` part. */
  lemma ScopedPathSkip(a: string, y: string, pattern: string, replacement: string)
    requires '{' !in a && |pattern| > 0 && pattern[0] == '{'
    ensures ReplaceAll("/" + (a + ("/" + y)), pattern, replacement)
         == "/" + (a + ("/" + ReplaceAll(y, pattern, replacement)))
  {
    ReplaceAllSkip("/", a + ("/" + y), pattern, replacement);
    ReplaceAllSkip(a, "/" + y, pattern, replacement);
    ReplaceAllSkip("/", y, pattern, replacement);
  }

  /** `{oid}` becomes `{orgId}` in an organisation-scoped path. */
  lemma OrgPathRenameFirst(a: string, b: string)
    requires PlainName(a) && PlainName(b)
    ensures ReplaceAll(ScopedPath("/", a, "{oid}", b), "{oid}", "{orgId}") == ScopedPath("/", a, "{orgId}", b)
  {
    var oid, orgId := "{oid}", "{orgId}";
    ScopedPathSkip(a, oid + ("/" + b), oid, orgId);
    ReplaceAllMatchHead("/" + b, oid, orgId);
    ReplaceAllNoHead("/" + b, oid, orgId);
  }

  /** A placeholder that differs from the pattern at its second character is
      kept in a scoped path. */
  lemma ScopedPathKeeps(a: string, token: string, b: string, pattern: string, replacement: string)
    requires '{' !in a && '{' !in b
    requires |token| >= 2 && token[0] == '{' && '{' !in token[1..]
    requires |pattern| >= 2 && pattern[0] == '{' && pattern[1] != token[1]
    ensures ReplaceAll(ScopedPath("/", a, token, b), pattern, replacement) == ScopedPath("/", a, token, b)
  {
    ScopedPathSkip(a, token + ("/" + b), pattern, replacement);
    ReplaceAllSegment(token, "/" + b, pattern, replacement);
    ReplaceAllNoHead("/" + b, pattern, replacement);
  }

  /** The other table entries leave `{orgId}` alone. */
  lemma OrgPathRenameRest(a: string, b: string)
    requires PlainName(a) && PlainName(b)
    ensures ReplaceEach(ScopedPath("/", a, "{orgId}", b), PathTokenTable[1..]) == ScopedPath("/", a, "{orgId}", b)
  {
    var orgId := "{orgId}";
    var s2 := ScopedPath("/", a, orgId, b);
    var rest := PathTokenTable[1..];
    assert forall e :: e in rest ==> |e.0| >= 2 && e.0[0] == '{' && e.0[1] != orgId[1];
    forall e | e in rest
      ensures |e.0| > 0 && ReplaceAll(s2, e.0, e.1) == s2
    {
      ScopedPathKeeps(a, orgId, b, e.0, e.1);
    }
    ReplaceEachFixed(s2, rest);
  }

  /** Of the table, only `{oid}` applies to an organisation-scoped path. */
  lemma OrgPathRename(a: string, b: string)
    requires PlainName(a) && PlainName(b)
    ensures ReplaceEach(ScopedPath("/", a, "{oid}", b), PathTokenTable) == ScopedPath("/", a, "{orgId}", b)
  {
    assert PathTokenTable[0] == ("{oid}", "{orgId}");
    OrgPathRenameFirst(a, b);
    OrgPathRenameRest(a, b);
  }

  /** The documented example of the merge, `/api/orgs/{oid}/workspaces`
      becoming `/orgs/{orgId}/workspaces`, for any plain segment names. */
  lemma NormalizeOrgPath(a: string, b: string)
    requires PlainName(a) && PlainName(b)
    ensures NormalizePath(ScopedPath("/api/", a, "{oid}", b)) == ScopedPath("/", a, "{orgId}", b)
  {
    OrgPathFirstStrip(a, b);
    OrgPathSecondStrip(a, b);
    OrgPathRename(a, b);
  }

  /** The table leaves a string without `{` alone. */
  lemma RenameKeepsPlain(s: string)
    requires '{' !in s
    ensures ReplaceEach(s, PathTokenTable) == s
  {
    TableIsTokens();
    forall e | e in PathTokenTable
      ensures |e.0| > 0 && ReplaceAll(s, e.0, e.1) == s
    {
      ReplaceAllNoHead(s, e.0, e.1);
    }
    ReplaceEachFixed(s, PathTokenTable);
  }

  /** `/apiapi` normalizes to `/api`: the first strip finds no `/api/`, the
      second removes the leading `/api` only. */
  lemma ApiApiOnce(path: string)
    requires path == "/" + ("api" + "api")
    ensures NormalizePath(path) == "/" + "api"
  {
    var p, q, r := "/api/", "/api", "/";
    var t := "api" + "api";
    assert !StartsWith(['/'] + t, p) by {
      assert (['/'] + t)[..|p|][4] != p[4];
    }
    ReplaceAllCons('/', t, p, r);
    assert t == t + [];
    ReplaceAllSkip(t, [], p, r);
    ReplaceAllShort([], p, r);
    assert path == q + "api";
    ReplaceAllMatchHead("api", q, r);
    ReplaceAllShort("api", q, r);
    RenameKeepsPlain(r + "api");
  }

  /** `/api` normalizes to `/`. */
  lemma ApiOnce(path: string)
    requires path == "/" + "api"
    ensures NormalizePath(path) == "/"
  {
    var p, q, r := "/api/", "/api", "/";
    ReplaceAllShort(path, p, r);
    assert path == q + [];
    ReplaceAllMatchHead([], q, r);
    ReplaceAllShort([], q, r);
    RenameKeepsPlain(r);
  }

  /** normalize_path is not idempotent: stripping `/api` can expose a new
      `/api`, so `/apiapi` becomes `/api` and then `/`. */
  lemma NormalizePathNotIdempotent(path: string)
    requires path == "/" + ("api" + "api")
    ensures NormalizePath(path) != NormalizePath(NormalizePath(path))
  {
    ApiApiOnce(path);
    ApiOnce("/" + "api");
  }
}

=== FILE: strings.dfy ===
/**
  Plain string operations with the semantics of the Python built-ins the
  schema scripts rely on: `str.startswith`, the substring test `t in s`,
  and `str.replace(old, new)` (left to right, non-overlapping, every
  occurrence).
 */
module Strings {

  /** `s.startswith(p)` */
  predicate StartsWith(s: string, p: string) {
    |p| <= |s| && s[..|p|] == p
  }

  /** `t` occurs in `s` at index `i`. */
  predicate OccursAt(s: string, t: string, i: int) {
    0 <= i && i + |t| <= |s| && s[i..i + |t|] == t
  }

  /** The Python substring test `t in s`. */
  predicate Contains(s: string, t: string) {
    exists i | 0 <= i <= |s| - |t| :: OccursAt(s, t, i)
  }

  /** `s.replace(pattern, replacement)` for a non-empty pattern: scan from
      the left, replace each occurrence and continue after it. */
  function ReplaceAll(s: string, pattern: string, replacement: string): (r: string)
    requires |pattern| > 0
    ensures |pattern| <= |replacement| ==> |s| <= |r|
    ensures |replacement| <= |pattern| ==> |r| <= |s|
    decreases |s|
  {
    if |s| < |pattern| then s
    else if s[..|pattern|] == pattern then replacement + ReplaceAll(s[|pattern|..], pattern, replacement)
    else [s[0]] + ReplaceAll(s[1..], pattern, replacement)
  }

  /** A `{name}` placeholder: braces at both ends and nowhere else. */
  predicate BraceToken(t: string) {
    && |t| >= 2
    && t[0] == '{'
    && t[|t| - 1] == '}'
    && forall k :: 0 < k < |t| - 1 ==> t[k] != '{' && t[k] != '}'
  }

  /** A placeholder is recognised by its interior. */
  lemma BraceTokenInterior(t: string)
    requires |t| >= 2 && t[0] == '{' && t[|t| - 1] == '}'
    requires '{' !in t[1..|t| - 1] && '}' !in t[1..|t| - 1]
    ensures BraceToken(t)
  {
    forall k | 0 < k < |t| - 1
      ensures t[k] != '{' && t[k] != '}'
    {
      assert t[k] == t[1..|t| - 1][k - 1];
    }
  }

  lemma ContainsInSuffix(s: string, k: nat, t: string)
    requires k <= |s|
    requires Contains(s[k..], t)
    ensures Contains(s, t)
  {
    var i :| 0 <= i <= |s[k..]| - |t| && OccursAt(s[k..], t, i);
    assert s[k + i..k + i + |t|] == s[k..][i..i + |t|];
    assert OccursAt(s, t, k + i);
  }

  /** Wherever `t` occurs, so does each of its prefixes. */
  lemma ContainsPrefix(s: string, t: string, k: nat)
    requires k <= |t|
    ensures Contains(s, t) ==> Contains(s, t[..k])
  {
    if i :| 0 <= i <= |s| - |t| && OccursAt(s, t, i) {
      assert s[i..i + k] == s[i..i + |t|][..k];
      assert OccursAt(s, t[..k], i);
    }
  }

  /** Replacing a pattern that does not occur leaves the string as it is. */
  lemma {:induction false} ReplaceAllAbsent(s: string, pattern: string, replacement: string)
    requires |pattern| > 0
    requires !Contains(s, pattern)
    ensures ReplaceAll(s, pattern, replacement) == s
    decreases |s|
  {
    if |s| >= |pattern| {
      assert !OccursAt(s, pattern, 0);
      if Contains(s[1..], pattern) {
        ContainsInSuffix(s, 1, pattern);
      }
      ReplaceAllAbsent(s[1..], pattern, replacement);
      assert [s[0]] + s[1..] == s;
    }
  }

  /** As long as the output shows no `{`, no replacement has happened yet,
      so the output and the input agree on that prefix. */
  lemma {:induction false} ReplaceAllPrefix(s: string, pattern: string, replacement: string, k: nat)
    requires |pattern| > 0 && |replacement| > 0 && replacement[0] == '{'
    ensures var r := ReplaceAll(s, pattern, replacement);
      k <= |r| && (forall j :: 0 <= j < k ==> r[j] != '{') ==> k <= |s| && s[..k] == r[..k]
    decreases |s|
  {
    var r := ReplaceAll(s, pattern, replacement);
    if k > 0 && |s| >= |pattern| {
      if s[..|pattern|] == pattern {
        assert r[0] == replacement[0];
      } else {
        var r' := ReplaceAll(s[1..], pattern, replacement);
        assert r == [s[0]] + r';
        ReplaceAllPrefix(s[1..], pattern, replacement, k - 1);
        if k <= |r| && (forall j :: 0 <= j < k ==> r[j] != '{') {
          forall j | 0 <= j < k - 1
            ensures r'[j] != '{'
          {
            assert r'[j] == r[j + 1];
          }
          assert s[..k] == [s[0]] + s[1..][..k - 1];
        }
      }
    }
  }

  /** Putting a `{…}` token in front of a string free of the token `a`
      creates no occurrence of `a`, unless the token is `a` itself. */
  lemma TokenPrefixAvoids(replacement: string, r: string, a: string)
    requires BraceToken(replacement) && BraceToken(a) && a != replacement
    requires !Contains(r, a)
    ensures !Contains(replacement + r, a)
  {
    var t := replacement + r;
    forall i | 0 <= i <= |t| - |a|
      ensures !OccursAt(t, a, i)
    {
      if i >= |replacement| {
        assert r[i - |replacement|..i - |replacement| + |a|] == t[i..i + |a|];
        assert !OccursAt(r, a, i - |replacement|);
      } else if i > 0 {
        assert t[i..i + |a|][0] == replacement[i] != a[0];
      } else if |a| < |replacement| {
        assert t[..|a|][|a| - 1] == replacement[|a| - 1] != a[|a| - 1];
      } else if |a| == |replacement| {
        assert t[..|a|] == replacement;
      } else {
        assert t[..|a|][|replacement| - 1] == replacement[|replacement| - 1] != a[|replacement| - 1];
      }
    }
  }

  /** A token with no `{` after its first character can start at the head
      of the output only if it started at the head of the input. */
  lemma HeadAvoids(s0: char, rest: string, pattern: string, replacement: string, a: string)
    requires |pattern| > 0 && |replacement| > 0 && replacement[0] == '{'
    requires |a| > 0 && forall k :: 0 < k < |a| ==> a[k] != '{'
    requires !OccursAt([s0] + rest, a, 0)
    ensures !OccursAt([s0] + ReplaceAll(rest, pattern, replacement), a, 0)
  {
    var r' := ReplaceAll(rest, pattern, replacement);
    var r := [s0] + r';
    if |a| <= |r| {
      if j :| 0 <= j < |a| - 1 && r'[j] == '{' {
        assert r[..|a|][j + 1] == r'[j] != a[j + 1];
      } else {
        ReplaceAllPrefix(rest, pattern, replacement, |a| - 1);
        assert r[..|a|] == [s0] + rest[..|a| - 1] == ([s0] + rest)[..|a|];
      }
    }
  }

  /** An occurrence in `[c] + t` that is not at the head is one in `t`. */
  lemma ConsAvoids(c: char, t: string, a: string)
    requires !Contains(t, a)
    ensures forall i :: 1 <= i <= |t| + 1 - |a| ==> !OccursAt([c] + t, a, i)
  {
    forall i | 1 <= i <= |t| + 1 - |a|
      ensures !OccursAt([c] + t, a, i)
    {
      assert t[i - 1..i - 1 + |a|] == ([c] + t)[i..i + |a|];
      assert !OccursAt(t, a, i - 1);
    }
  }

  /** Copying one character in front of a token-free replacement output
      creates no occurrence of a token `a` that was absent from the input. */
  lemma CopiedHeadAvoids(s0: char, rest: string, pattern: string, replacement: string, a: string)
    requires |pattern| > 0 && |replacement| > 0 && replacement[0] == '{'
    requires |a| > 0 && forall k :: 0 < k < |a| ==> a[k] != '{'
    requires !OccursAt([s0] + rest, a, 0)
    requires !Contains(ReplaceAll(rest, pattern, replacement), a)
    ensures !Contains([s0] + ReplaceAll(rest, pattern, replacement), a)
  {
    ConsAvoids(s0, ReplaceAll(rest, pattern, replacement), a);
    HeadAvoids(s0, rest, pattern, replacement, a);
  }

  lemma ReplaceAllCopiesHead(s: string, pattern: string, replacement: string)
    requires |pattern| > 0
    requires |s| >= |pattern| && s[..|pattern|] != pattern
    ensures ReplaceAll(s, pattern, replacement) == [s[0]] + ReplaceAll(s[1..], pattern, replacement)
  {
  }

  /** Replacing one `{…}` token by another never creates an occurrence of a
      token `a` different from the replacement: neither of the replaced one
      (a == pattern) nor of a token that was absent before. */
  lemma {:induction false} ReplaceAllAvoids(s: string, pattern: string, replacement: string, a: string)
    requires BraceToken(pattern) && BraceToken(replacement) && BraceToken(a)
    requires a != replacement
    requires a == pattern || !Contains(s, a)
    ensures !Contains(ReplaceAll(s, pattern, replacement), a)
    decreases |s|
  {
    if |s| < |pattern| {
      forall i | 0 <= i <= |s| - |a|
        ensures !OccursAt(s, a, i)
      {
      }
    } else if s[..|pattern|] == pattern {
      var rest := s[|pattern|..];
      if a != pattern && Contains(rest, a) {
        ContainsInSuffix(s, |pattern|, a);
      }
      ReplaceAllAvoids(rest, pattern, replacement, a);
      TokenPrefixAvoids(replacement, ReplaceAll(rest, pattern, replacement), a);
    } else {
      if a != pattern && Contains(s[1..], a) {
        ContainsInSuffix(s, 1, a);
      }
      ReplaceAllAvoids(s[1..], pattern, replacement, a);
      assert [s[0]] + s[1..] == s;
      assert a == pattern || !Contains(s, a);
      assert !OccursAt([s[0]] + s[1..], a, 0);
      CopiedHeadAvoids(s[0], s[1..], pattern, replacement, a);
      ReplaceAllCopiesHead(s, pattern, replacement);
    }
  }

  /** A string without the first character of the pattern is left as is. */
  lemma {:induction false} ReplaceAllNoHead(s: string, pattern: string, replacement: string)
    requires |pattern| > 0 && pattern[0] !in s
    ensures ReplaceAll(s, pattern, replacement) == s
    decreases |s|
  {
    if |s| >= |pattern| {
      assert s[..|pattern|][0] != pattern[0];
      ReplaceAllNoHead(s[1..], pattern, replacement);
      assert [s[0]] + s[1..] == s;
    }
  }

  /** A string shorter than the pattern is left as is. */
  lemma ReplaceAllShort(s: string, pattern: string, replacement: string)
    requires 0 < |pattern| && |s| < |pattern|
    ensures ReplaceAll(s, pattern, replacement) == s
  {
  }

  /** An occurrence at the head is replaced and the scan resumes after it. */
  lemma ReplaceAllMatchHead(t: string, pattern: string, replacement: string)
    requires |pattern| > 0
    ensures ReplaceAll(pattern + t, pattern, replacement) == replacement + ReplaceAll(t, pattern, replacement)
  {
    assert (pattern + t)[..|pattern|] == pattern;
    assert (pattern + t)[|pattern|..] == t;
  }

  /** A character at which the pattern does not start is copied. */
  lemma ReplaceAllCons(c: char, t: string, pattern: string, replacement: string)
    requires |pattern| > 0 && !StartsWith([c] + t, pattern)
    ensures ReplaceAll([c] + t, pattern, replacement) == [c] + ReplaceAll(t, pattern, replacement)
  {
    var s := [c] + t;
    if |s| < |pattern| {
      ReplaceAllShort(t, pattern, replacement);
    } else {
      assert s[1..] == t;
    }
  }

  /** A prefix without the first character of the pattern is copied as is. */
  lemma {:induction false} ReplaceAllSkip(a: string, rest: string, pattern: string, replacement: string)
    requires |pattern| > 0 && pattern[0] !in a
    ensures ReplaceAll(a + rest, pattern, replacement) == a + ReplaceAll(rest, pattern, replacement)
    decreases |a|
  {
    if a == [] {
      assert a + rest == rest;
    } else {
      var t := a[1..] + rest;
      assert a + rest == [a[0]] + t;
      assert !StartsWith([a[0]] + t, pattern) by {
        if |pattern| <= |[a[0]] + t| {
          assert ([a[0]] + t)[..|pattern|][0] == a[0];
        }
      }
      ReplaceAllCons(a[0], t, pattern, replacement);
      ReplaceAllSkip(a[1..], rest, pattern, replacement);
      assert a == [a[0]] + a[1..];
    }
  }

  /** A segment that starts like the pattern but diverges at its second
      character, and never shows the first character again, is copied. */
  lemma ReplaceAllSegment(a: string, rest: string, pattern: string, replacement: string)
    requires |pattern| >= 2 && |a| >= 2
    requires a[0] == pattern[0] && a[1] != pattern[1] && pattern[0] !in a[1..]
    ensures ReplaceAll(a + rest, pattern, replacement) == a + ReplaceAll(rest, pattern, replacement)
  {
    var t := a[1..] + rest;
    assert a + rest == [a[0]] + t;
    assert !StartsWith([a[0]] + t, pattern) by {
      if |pattern| <= |[a[0]] + t| {
        assert ([a[0]] + t)[..|pattern|][1] == a[1];
      }
    }
    ReplaceAllCons(a[0], t, pattern, replacement);
    ReplaceAllSkip(a[1..], rest, pattern, replacement);
    assert a == [a[0]] + a[1..];
  }

  /** Applies each `(pattern, replacement)` of `table` in turn with
      `str.replace`, as the `for old, new in ...items()` loop does. */
  function ReplaceEach(s: string, table: seq<(string, string)>): (r: string)
    requires forall e :: e in table ==> |e.0| > 0
    ensures (forall e :: e in table ==> |e.0| <= |e.1|) ==> |s| <= |r|
    ensures (forall e :: e in table ==> |e.1| <= |e.0|) ==> |r| <= |s|
    decreases |table|
  {
    if table == [] then s else ReplaceEach(ReplaceAll(s, table[0].0, table[0].1), table[1..])
  }

  /** A table of `{…}` tokens whose patterns never equal a replacement
      leaves none of its patterns behind. */
  lemma {:induction false} ReplaceEachAvoids(s: string, table: seq<(string, string)>, a: string)
    requires forall e :: e in table ==> |e.0| > 0 && BraceToken(e.0) && BraceToken(e.1) && a != e.1
    requires BraceToken(a)
    requires (exists e :: e in table && e.0 == a) || !Contains(s, a)
    ensures !Contains(ReplaceEach(s, table), a)
    decreases |table|
  {
    if table != [] {
      var s' := ReplaceAll(s, table[0].0, table[0].1);
      if a == table[0].0 || !Contains(s, a) {
        ReplaceAllAvoids(s, table[0].0, table[0].1, a);
      } else {
        var e :| e in table && e.0 == a;
        assert e in table[1..];
      }
      ReplaceEachAvoids(s', table[1..], a);
    }
  }

  /** A table whose patterns do not occur changes nothing. */
  lemma {:induction false} ReplaceEachAbsent(s: string, table: seq<(string, string)>)
    requires forall e :: e in table ==> |e.0| > 0 && !Contains(s, e.0)
    ensures ReplaceEach(s, table) == s
    decreases |table|
  {
    if table != [] {
      ReplaceAllAbsent(s, table[0].0, table[0].1);
      ReplaceEachAbsent(s, table[1..]);
    }
  }

  /** A string that every table entry leaves alone passes through. */
  lemma {:induction false} ReplaceEachFixed(s: string, table: seq<(string, string)>)
    requires forall e :: e in table ==> |e.0| > 0 && ReplaceAll(s, e.0, e.1) == s
    ensures ReplaceEach(s, table) == s
    decreases |table|
  {
    if table != [] {
      ReplaceEachFixed(s, table[1..]);
    }
  }

  /** A replacement longer than its pattern never shortens the string, and
      lengthens it as soon as the pattern occurs. */
  lemma {:induction false} ReplaceAllGrows(s: string, pattern: string, replacement: string)
    requires 0 < |pattern| < |replacement|
    ensures |ReplaceAll(s, pattern, replacement)| >= |s|
    ensures Contains(s, pattern) ==> |ReplaceAll(s, pattern, replacement)| > |s|
    decreases |s|
  {
    if |s| < |pattern| {
    } else if s[..|pattern|] == pattern {
      ReplaceAllGrows(s[|pattern|..], pattern, replacement);
    } else {
      ReplaceAllGrows(s[1..], pattern, replacement);
      if Contains(s, pattern) {
        var i :| 0 <= i <= |s| - |pattern| && OccursAt(s, pattern, i);
        assert i != 0;
        assert s[1..][i - 1..i - 1 + |pattern|] == s[i..i + |pattern|];
        assert OccursAt(s[1..], pattern, i - 1);
      }
    }
  }

  /** A table of lengthening replacements changes a string exactly when one
      of its patterns occurs in it. */
  lemma {:induction false} ReplaceEachUnchangedIff(s: string, table: seq<(string, string)>)
    requires forall e :: e in table ==> 0 < |e.0| < |e.1|
    ensures |ReplaceEach(s, table)| >= |s|
    ensures ReplaceEach(s, table) == s <==> forall e :: e in table ==> !Contains(s, e.0)
    decreases |table|
  {
    if table != [] {
      var s' := ReplaceAll(s, table[0].0, table[0].1);
      ReplaceAllGrows(s, table[0].0, table[0].1);
      ReplaceEachUnchangedIff(s', table[1..]);
      if Contains(s, table[0].0) {
        assert |ReplaceEach(s, table)| > |s|;
      } else {
        ReplaceAllAbsent(s, table[0].0, table[0].1);
        assert forall e :: e in table ==> e == table[0] || e in table[1..];
      }
    }
  }
}

=== FILE: tree.dfy ===
/**
  The loaded OpenAPI document as a generic tree, and the handful of Python
  dictionary, list and string operations the schema scripts apply to it.

  A mapping is an association list in insertion order, as a Python `dict`
  is; the scripts only ever build mappings with distinct keys. Numbers and
  booleans are opaque atoms: nothing inspects them. A Python exception is
  an `Err` carrying the kind of fault.
 */
module Trees {
  import opened Strings

  datatype Tree =
    | Mapping(entries: seq<(string, Tree)>)
    | List(items: seq<Tree>)
    | Str(text: string)
    | Bool(flag: bool)
    | Number(lexeme: string)
    | Null

  type Entries = seq<(string, Tree)>

  datatype Option<T> = None | Some(value: T)

  /** The Python exception a script would raise. */
  datatype Fault =
    | KeyError(key: string)
    | TypeError(operation: string)
    | AttributeError(attribute: string)

  datatype Result<T> = Ok(value: T) | Err(fault: Fault) {
    predicate IsFailure() {
      Err?
    }

    function PropagateFailure<U>(): Result<U>
      requires Err?
    {
      Err(fault)
    }

    function Extract(): T
      requires Ok?
    {
      value
    }
  }

  /** The keys of a mapping, in order. */
  function Keys(es: Entries): (ks: seq<string>)
    ensures |ks| == |es|
    ensures forall i :: 0 <= i < |es| ==> ks[i] == es[i].0
  {
    if es == [] then [] else [es[0].0] + Keys(es[1..])
  }

  predicate HasKey(es: Entries, k: string) {
    k in Keys(es)
  }

  predicate Distinct<T(==)>(s: seq<T>) {
    forall i, j :: 0 <= i < j < |s| ==> s[i] != s[j]
  }

  /** No key occurs twice, as in every Python `dict`. */
  predicate UniqueKeys(es: Entries) {
    Distinct(Keys(es))
  }

  /** Every mapping in the tree has distinct keys. */
  predicate WellFormed(t: Tree) {
    match t
    case Mapping(es) => UniqueKeys(es) && forall i :: 0 <= i < |es| ==> WellFormed(es[i].1)
    case List(xs) => forall i :: 0 <= i < |xs| ==> WellFormed(xs[i])
    case _ => true
  }

  /** `d[k]` on a mapping: the value of the first entry with key `k`. */
  function Lookup(es: Entries, k: string): (r: Option<Tree>)
    ensures r.None? <==> !HasKey(es, k)
    ensures r.Some? ==> (k, r.value) in es
  {
    if es == [] then None
    else if es[0].0 == k then Some(es[0].1)
    else
      Lookup(es[1..], k)
  }

  /** The position `Lookup` reads from. */
  function KeyIndex(es: Entries, k: string): (i: nat)
    requires HasKey(es, k)
    ensures i < |es| && es[i].0 == k && Lookup(es, k) == Some(es[i].1)
  {
    if es[0].0 == k then 0 else 1 + KeyIndex(es[1..], k)
  }

  lemma LookupCons(e: (string, Tree), es: Entries)
    ensures forall k :: Lookup([e] + es, k) == if e.0 == k then Some(e.1) else Lookup(es, k)
  {
    assert ([e] + es)[1..] == es;
  }

  /** `d[k] = v` on a mapping: an existing key keeps its place, a new key
      is appended. */
  function Put(es: Entries, k: string, v: Tree): (r: Entries)
    ensures HasKey(es, k) ==> Keys(r) == Keys(es)
    ensures !HasKey(es, k) ==> Keys(r) == Keys(es) + [k]
  {
    if es == [] then [(k, v)]
    else if es[0].0 == k then [(k, v)] + es[1..]
    else [es[0]] + Put(es[1..], k, v)
  }

  /** After `d[k] = v`, `d[k]` is `v` and every other key reads as before. */
  lemma {:induction false} PutLookup(es: Entries, k: string, v: Tree)
    ensures forall k' :: Lookup(Put(es, k, v), k') == if k' == k then Some(v) else Lookup(es, k')
  {
    if es != [] {
      var e, tail := es[0], es[1..];
      assert es == [e] + tail;
      LookupCons(e, tail);
      if e.0 == k {
        LookupCons((k, v), tail);
      } else {
        PutLookup(tail, k, v);
        LookupCons(e, Put(tail, k, v));
      }
    }
  }

  /** Assigning the value a key already holds changes nothing. */
  lemma {:induction false} PutSame(es: Entries, k: string, v: Tree)
    requires Lookup(es, k) == Some(v)
    ensures Put(es, k, v) == es
  {
    if es[0].0 != k {
      PutSame(es[1..], k, v);
    }
  }

  /** Assignment keeps the keys of a Python `dict` distinct. */
  lemma PutUnique(es: Entries, k: string, v: Tree)
    requires UniqueKeys(es)
    ensures UniqueKeys(Put(es, k, v))
  {
    var ks := Keys(es);
    if !HasKey(es, k) {
      forall i, j | 0 <= i < j < |ks + [k]|
        ensures (ks + [k])[i] != (ks + [k])[j]
      {
        if j == |ks| {
          assert (ks + [k])[i] == ks[i];
        }
      }
    }
  }

  /** Python `k in t`: a key test on a mapping, a membership test on a list,
      a substring test on a string. */
  function In(k: string, t: Tree): (r: Result<bool>)
    ensures t.Mapping? ==> r == Ok(HasKey(t.entries, k))
    ensures t.List? ==> r == Ok(Str(k) in t.items)
    ensures t.Str? ==> r == Ok(Contains(t.text, k))
    ensures r.Err? <==> !(t.Mapping? || t.List? || t.Str?)
  {
    match t
    case Mapping(es) => Ok(HasKey(es, k))
    case List(xs) => Ok(Str(k) in xs)
    case Str(s) => Ok(Contains(s, k))
    case _ => Err(TypeError("in"))
  }

  /** Python `t[k]` with a string subscript. */
  function Index(t: Tree, k: string): (r: Result<Tree>)
    ensures r.Ok? <==> t.Mapping? && HasKey(t.entries, k)
    ensures r.Ok? ==> Lookup(t.entries, k) == Some(r.value)
  {
    match t
    case Mapping(es) =>
      (match Lookup(es, k)
       case Some(v) => Ok(v)
       case None => Err(KeyError(k)))
    case _ => Err(TypeError("subscript"))
  }

  /** Python `t.get(k, d)`. */
  function GetOr(t: Tree, k: string, d: Tree): (r: Result<Tree>)
    ensures r.Ok? <==> t.Mapping?
    ensures t.Mapping? && !HasKey(t.entries, k) ==> r == Ok(d)
    ensures t.Mapping? && HasKey(t.entries, k) ==> Lookup(t.entries, k) == Some(r.value)
  {
    match t
    case Mapping(es) =>
      (match Lookup(es, k)
       case Some(v) => Ok(v)
       case None => Ok(d))
    case _ => Err(AttributeError("get"))
  }

  /** Python `t[k] = v` with a string subscript. */
  function SetItem(t: Tree, k: string, v: Tree): (r: Result<Tree>)
    ensures r.Ok? <==> t.Mapping?
    ensures r.Ok? ==> r.value.Mapping? && Lookup(r.value.entries, k) == Some(v)
    ensures r.Ok? ==> forall k' :: k' != k ==> Lookup(r.value.entries, k') == Lookup(t.entries, k')
  {
    match t
    case Mapping(es) =>
      PutLookup(es, k, v);
      Ok(Mapping(Put(es, k, v)))
    case _ => Err(TypeError("item assignment"))
  }

  /** The elements Python's `for x in t` visits: the items of a list, the
      keys of a mapping, the one-character strings of a string. */
  function Iterate(t: Tree): (r: Result<seq<Tree>>)
    ensures t.List? ==> r == Ok(t.items)
    ensures t.Mapping? ==> r.Ok? && |r.value| == |t.entries|
    ensures t.Mapping? ==> forall i :: 0 <= i < |t.entries| ==> r.value[i] == Str(t.entries[i].0)
    ensures t.Str? ==> r.Ok? && |r.value| == |t.text|
    ensures t.Str? ==> forall i :: 0 <= i < |t.text| ==> r.value[i] == Str([t.text[i]])
    ensures r.Err? <==> !(t.Mapping? || t.List? || t.Str?)
  {
    match t
    case List(xs) => Ok(xs)
    case Mapping(es) => Ok(seq(|es|, i requires 0 <= i < |es| => Str(es[i].0)))
    case Str(s) => Ok(seq(|s|, i requires 0 <= i < |s| => Str([s[i]])))
    case _ => Err(TypeError("iteration"))
  }

  /** The keys of a mapping as a set. */
  function KeySet(es: Entries): set<string> {
    set k | k in Keys(es)
  }

  lemma PutKeySet(es: Entries, k: string, v: Tree)
    ensures KeySet(Put(es, k, v)) == KeySet(es) + {k}
  {
  }

  lemma PutKeepsUnique(es: Entries, k: string, v: Tree)
    ensures UniqueKeys(es) ==> UniqueKeys(Put(es, k, v))
  {
    if UniqueKeys(es) {
      PutUnique(es, k, v);
    }
  }

  /** Assigning a new key appends an entry. */
  lemma {:induction false} PutAppends(es: Entries, k: string, v: Tree)
    requires !HasKey(es, k)
    ensures Put(es, k, v) == es + [(k, v)]
  {
    if es != [] {
      assert Keys(es) == [es[0].0] + Keys(es[1..]);
      PutAppends(es[1..], k, v);
      assert [es[0]] + (es[1..] + [(k, v)]) == es + [(k, v)];
    }
  }

  /** `d[k] = v` for every entry of `m`, in order. */
  function PutAll(es: Entries, m: Entries): Entries
    decreases |m|
  {
    if m == [] then es else PutAll(Put(es, m[0].0, m[0].1), m[1..])
  }

  /** Entries with keys the mapping lacks are appended, in order. */
  lemma {:induction false} PutAllAppends(es: Entries, m: Entries)
    requires UniqueKeys(m)
    requires forall k :: k in Keys(m) ==> !HasKey(es, k)
    ensures PutAll(es, m) == es + m
    decreases |m|
  {
    if m != [] {
      FreshAfterAppend(es, m);
      PutAllFirst(es, m);
      PutAllAppends(es + [m[0]], m[1..]);
      ShiftHead(es, m);
    }
  }

  lemma ShiftHead(es: Entries, m: Entries)
    requires m != []
    ensures (es + [m[0]]) + m[1..] == es + m
  {
    assert m == [m[0]] + m[1..];
  }

  lemma PutAllFirst(es: Entries, m: Entries)
    requires m != [] && !HasKey(es, m[0].0)
    ensures PutAll(es, m) == PutAll(es + [m[0]], m[1..])
  {
    PutAppends(es, m[0].0, m[0].1);
  }

  lemma FreshAfterAppend(es: Entries, m: Entries)
    requires m != [] && UniqueKeys(m)
    requires forall k :: k in Keys(m) ==> !HasKey(es, k)
    ensures !HasKey(es, m[0].0) && UniqueKeys(m[1..])
    ensures forall k :: k in Keys(m[1..]) ==> !HasKey(es + [m[0]], k)
  {
    UniqueTail(m);
    forall k | k in Keys(m[1..])
      ensures !HasKey(es + [m[0]], k)
    {
      HasKeyAppend(es, m[0], k);
    }
  }

  /** The tail of a mapping with distinct keys has distinct keys, none of
      them the head's. */
  lemma UniqueTail(m: Entries)
    requires m != [] && UniqueKeys(m)
    ensures Keys(m) == [m[0].0] + Keys(m[1..])
    ensures UniqueKeys(m[1..]) && m[0].0 !in Keys(m[1..])
  {
    var ks := Keys(m);
    assert Keys(m[1..]) == ks[1..];
  }

  lemma HasKeyAppend(es: Entries, e: (string, Tree), k: string)
    ensures HasKey(es + [e], k) <==> HasKey(es, k) || k == e.0
  {
    KeysAppend(es, [e]);
  }

  lemma KeysAppend(a: Entries, b: Entries)
    ensures Keys(a + b) == Keys(a) + Keys(b)
  {
    var l, r := Keys(a + b), Keys(a) + Keys(b);
    forall i | 0 <= i < |a + b|
      ensures l[i] == r[i]
    {
      if i < |a| {
        assert (a + b)[i] == a[i];
      } else {
        assert (a + b)[i] == b[i - |a|];
      }
    }
  }

  /** Looking a key up past a mapping that lacks it. */
  lemma {:induction false} LookupAppend(a: Entries, b: Entries, k: string)
    requires !HasKey(a, k)
    ensures Lookup(a + b, k) == Lookup(b, k)
  {
    if a == [] {
      assert a + b == b;
    } else {
      assert a + b == [a[0]] + (a[1..] + b);
      LookupCons(a[0], a[1..] + b);
      assert Keys(a)[0] == a[0].0;
      assert forall i :: 0 <= i < |a[1..]| ==> Keys(a[1..])[i] == Keys(a)[i + 1];
      LookupAppend(a[1..], b, k);
    }
  }

  /** A mapping without keys is empty. */
  lemma EmptyKeySet(es: Entries)
    ensures KeySet(es) == {} <==> es == []
  {
    if es != [] {
      assert Keys(es)[0] in KeySet(es);
    }
  }

  /** `s` is `t` with some elements left out. */
  predicate Subsequence<T(==)>(s: seq<T>, t: seq<T>)
    decreases |t|
  {
    if s == [] then true
    else if t == [] then false
    else (s[0] == t[0] && Subsequence(s[1..], t[1..])) || Subsequence(s, t[1..])
  }

  /** Python `len(t)`. */
  function Len(t: Tree): (r: Result<nat>)
    ensures r.Ok? <==> t.Mapping? || t.List? || t.Str?
    ensures t.List? ==> r == Ok(|t.items|)
    ensures t.Mapping? ==> r == Ok(|t.entries|)
    ensures t.Str? ==> r == Ok(|t.text|)
  {
    match t
    case Mapping(es) => Ok(|es|)
    case List(xs) => Ok(|xs|)
    case Str(s) => Ok(|s|)
    case _ => Err(TypeError("len"))
  }

  /** `len(t) == len(list(t))`: `len` succeeds on exactly the values
      Python iterates, and counts the elements iteration visits. */
  lemma LenCountsIteration(t: Tree)
    ensures Len(t).Ok? <==> Iterate(t).Ok?
    ensures Len(t).Ok? ==> Len(t).value == |Iterate(t).value|
  {
  }

  /** `k in t` asks whether `for x in t` visits `k`: on a mapping (its
      keys), on a list (its items) and, for a one-character `k`, on a
      string (its characters). */
  lemma {:induction false} InAgreesWithIteration(k: string, t: Tree)
    requires t.Mapping? || t.List? || (t.Str? && |k| == 1)
    ensures In(k, t) == Ok(Str(k) in Iterate(t).value)
  {
    var it := Iterate(t).value;
    match t
    case Mapping(es) =>
      if HasKey(es, k) {
        var i := KeyIndex(es, k);
        assert it[i] == Str(k);
      }
      if Str(k) in it {
        var i :| 0 <= i < |it| && it[i] == Str(k);
        assert Keys(es)[i] == k;
      }
    case List(_) =>
    case Str(s) =>
      if Contains(s, k) {
        var i :| 0 <= i <= |s| - |k| && OccursAt(s, k, i);
        assert k == [s[i]];
        assert it[i] == Str(k);
      }
      if Str(k) in it {
        var i :| 0 <= i < |it| && it[i] == Str(k);
        assert OccursAt(s, k, i);
      }
  }

  /** Every entry after `d[k] = v` is the new one or an old one. */
  lemma {:induction false} PutEntries(es: Entries, k: string, v: Tree)
    ensures forall e :: e in Put(es, k, v) ==> e == (k, v) || e in es
  {
    if es != [] && es[0].0 != k {
      PutEntries(es[1..], k, v);
      assert forall e :: e in es[1..] ==> e in es;
    }
  }

  /** Looking a key up in a mapping that has it, past an extension. */
  lemma {:induction false} LookupPrefix(a: Entries, b: Entries, k: string)
    requires HasKey(a, k)
    ensures Lookup(a + b, k) == Lookup(a, k)
  {
    assert a + b == [a[0]] + (a[1..] + b);
    LookupCons(a[0], a[1..] + b);
    if a[0].0 != k {
      assert Keys(a) == [a[0].0] + Keys(a[1..]);
      LookupPrefix(a[1..], b, k);
    }
  }
}
